=== FILE: README.md ===
# Chat client core in Dafny

This project models the client-side logic of a React chat application. The
application is backed by a hosted Postgres service, and the modelled parts are:

- **Friend requests:**
  - a guarded send from the chat list;
  - the friend-requests page, which accepts a request and creates the pair's chat, or rejects it;
  - the lower-level helpers in `friends.js`.
- **The chat window:**
  - person-to-person sends with the chat-list preview;
  - the AI conversation with its 48-hour expiry rule.
- **The AI helper:** model choice, request payload, and reply text.
- **E-mail codes:** sending and verifying a one-time code.
- **Layout:** the width-to-layout hook.

The backend is a pure value, `Rows.Store`. It holds:

- the `friend_requests` rows;
- the `chats` rows;
- the `messages` rows;
- the next id the database would assign.

Each handler is a function from its inputs to a new store and a new local
component state. The model does not call the backend. Instead, every backend
call becomes a boolean input that says whether the call returned an error, and
the same applies to the AI call, the clock, the random draw and the mail
service.

Each module follows one source file:

| module | source file |
|---|---|
| `ChatList` | `ChatList.jsx` |
| `RequestsPage` | `FriendRequestsPage.jsx` |
| `FriendsApi` | `friends.js` |
| `ChatWindow` | `Chat.jsx` |
| `AiModels` | `aiModels.js` |
| `EmailOtp` | both OTP files |
| `ResponsiveView` | the hook |

Shared modules:

- `Core`: order-preserving filtering, subsequences, `find`, and reversal.
- `Text`: the ECMAScript `trim` over the full JavaScript whitespace set.
- `Rows`: the rows and the two store invariants:
  - at most one request row per unordered pair;
  - every accepted request has a chat containing both users.
- `Scenarios`: properties that span several files.

Behaviour the model follows from the code:

- **Any existing row blocks a new request.** The send in the chat list looks up
  the pair's rows in both directions and ignores their status. A pending,
  accepted or rejected row all block a new request from either side. A
  rejected row blocks like any other row, and nothing in the client removes
  it, so the pair stays blocked from new requests (`ChatList.AnyRowBlocksBothSides`,
  `Scenarios.RejectionBlocksForever`). The rejected request itself can still
  be accepted: the received list is loaded without a status filter and every
  row offers Accept (`Scenarios.RejectedRequestCanStillBeAccepted`).
- **The guard fails open.** If the lookup itself errors, `existingRequests`
  comes back null, so `existingRequests?.length` is undefined, the comparison
  with 0 is false, and the guard lets the insert through
  (`ChatList.FailedLookupAdmitsDuplicate`).
- **A failed accept is not rolled back.** Accepting updates the status first.
  If the chat lookup or the chat insert then fails, the status stays
  `accepted`, but no chat is created
  (`RequestsPage.FailedChatLookupLeavesAcceptedWithoutChat`).
- **The helpers in `friends.js` are unguarded.** They check for neither
  duplicates nor chats (`FriendsApi.UnguardedSendDuplicates`,
  `FriendsApi.BareAcceptLeavesNoChat`).
- **Loaded person-to-person rows never expire.** They have no `timestamp`. The
  expiry age is then NaN, which compares false, so such rows are never dropped.
- **Loaded rows go into the AI payload with no content.** Each one becomes an
  `assistant` entry whose content is absent, because the rows have no `isUser`
  or `text` field (`AiModels.Payload`).
- **The chat window's offline text is never shown** when it is combined with
  the AI helper. The window calls the helper with the prompt and the
  conversation from before the new entry (`ChatWindow.HandleSend` records
  that call), and the helper answers every failure with a string
  (`Scenarios.AIChatUsesHelperReply`).

## Model

| member | source | states |
|---|---|---|
| ChatList.SendFriendRequest | src/components/chatlist/ChatList.jsx:99-128 | ignored exactly when there is no user or the receiver is the user; "already exists" exactly when the lookup answered and some row links the pair in either direction; sent exactly when the insert succeeds and the lookup found nothing or failed; only a sent request changes state, appending one pending row and one local entry that marks the receiver as requested |
| ChatList.IsRequestSent | src/components/chatlist/ChatList.jsx:131-132 | true exactly when some local outgoing entry targets the user, whatever its status |
| ChatList.SentEntries | src/components/chatlist/ChatList.jsx:52-55 | the entries are exactly the (receiver, status) pairs of the user's outgoing rows |
| ChatList.FetchSent | src/components/chatlist/ChatList.jsx:50-57 | without a user, or when the query fails or returns no data, the local list is kept; otherwise it holds exactly the (receiver, status) pairs of the user's outgoing rows |
| ChatList.RequestSentMeansOutgoingRow | src/components/chatlist/ChatList.jsx:131-132 | after a refetch the marker shows for v exactly when the user has an outgoing row to v, of any status |
| ChatList.OptimisticEntryMatchesRefetch | src/components/chatlist/ChatList.jsx:123 | when the local list was in sync, the optimistic append equals what a refetch after the insert returns |
| ChatList.GuardedSendKeepsOneRowPerPair | src/components/chatlist/ChatList.jsx:103-111 | when the lookup answers, a send preserves "at most one row per pair" |
| ChatList.FailedLookupAdmitsDuplicate | src/components/chatlist/ChatList.jsx:103-108 | a lookup error while a row exists lets a second row for the pair in |
| ChatList.AnyRowBlocksBothSides | src/components/chatlist/ChatList.jsx:106-111 | any row between a and b, whatever its status, blocks sends a→b and b→a and leaves the state unchanged |
| ChatList.TwoSendsLeaveOneRow | src/components/chatlist/ChatList.jsx:99-128 | two sends to the same user from a pair with no rows leave exactly one row when either insert succeeded, none otherwise |
| ChatList.SearchResults | src/components/chatlist/ChatList.jsx:89 | the results are the query's profiles minus the logged-in user, in query order, each kept profile as often as the query returned it |
| ChatList.SearchUpdate | src/components/chatlist/ChatList.jsx:74-96 | a blank query clears the results; a failed query keeps the previous results; an answered query gives exactly the filtered data (`SearchResults`) |
| ChatList.Counterpart | src/components/chatlist/ChatList.jsx:141 | the first participant who is not the user; none exactly when every participant is the user |
| ChatList.CounterpartOfPair | src/components/chatlist/ChatList.jsx:141 | in a two-party chat the counterpart is the other party, in either storage order |
| ChatList.OpenChat | src/components/chatlist/ChatList.jsx:135-144 | a chat without an id is not opened; with a user the friend id is the counterpart, never the user; without a user a chat opens only when it has no participants |
| ChatList.PreviewText | src/components/chatlist/ChatList.jsx:211-215 | a missing or empty message reads "No messages yet"; up to 28 characters shown as is; longer ones become their first 28 characters plus "..."; never over 31 characters |
| RequestsPage.NewestFirst | src/pages/FriendRequestsPage.jsx:28-47 | a failed query gives the empty list; otherwise exactly the rows on that side, each once per occurrence, in reverse creation order |
| RequestsPage.Load | src/pages/FriendRequestsPage.jsx:28-47 | `sent` holds exactly the user's outgoing rows and `received` exactly the incoming ones; the store is untouched |
| RequestsPage.WithoutRequest | src/pages/FriendRequestsPage.jsx:88 | the handled request leaves the list; every other entry stays, with its multiplicity, in order |
| RequestsPage.HandleAccept | src/pages/FriendRequestsPage.jsx:53-93 | a failed update changes nothing; otherwise the row is accepted; success exactly when the lookup answers and a chat exists or the insert succeeds; a chat is created only when the pair has none; on success the pair has a chat and the request leaves `received` |
| RequestsPage.HandleReject | src/pages/FriendRequestsPage.jsx:96-111 | on success the row is rejected and leaves `received`; chats, messages and `sent` are never touched; on failure nothing changes |
| RequestsPage.AcceptKeepsAcceptedChats | src/pages/FriendRequestsPage.jsx:53-93 | an accept that completes, or fails before changing anything, preserves "every accepted request has a chat" |
| RequestsPage.FailedChatLookupLeavesAcceptedWithoutChat | src/pages/FriendRequestsPage.jsx:64-69 | a failing chat lookup after the update leaves an accepted request with no chat |
| RequestsPage.RejectKeepsAcceptedChats | src/pages/FriendRequestsPage.jsx:96-111 | rejection preserves "every accepted request has a chat" |
| RequestsPage.RepeatedAcceptAddsNoChat | src/pages/FriendRequestsPage.jsx:63-80 | a second accept finds the chat the first made and adds none |
| RequestsPage.AcceptKeepsOneChatPerPair | src/pages/FriendRequestsPage.jsx:63-80 | if the pair had at most one chat, it has at most one after an accept |
| RequestsPage.ResponsesKeepOneRowPerPair | src/pages/FriendRequestsPage.jsx:56-59 | accept and reject preserve "at most one row per pair" |
| FriendsApi.SendFriendRequest | src/utils/friends.js:4-11 | an error exactly when the insert fails; otherwise one row with the column-default status is appended and nothing else changes |
| FriendsApi.UnguardedSendDuplicates | src/utils/friends.js:4-11 | two successful sends for one pair break "at most one row per pair" |
| FriendsApi.IncomingRequests | src/utils/friends.js:14-28 | the callback sees exactly the inserted rows addressed to the user, each once per insert, in arrival order |
| FriendsApi.AcceptFriendRequest | src/utils/friends.js:31-38 | rows with the id become accepted, every other row, chat and message is unchanged |
| FriendsApi.BareAcceptLeavesNoChat | src/utils/friends.js:31-38 | the bare accept can leave an accepted request without a chat |
| FriendsApi.AreFriends | src/utils/friends.js:41-51 | true exactly when some accepted row links the two in either direction; an error exactly when the query fails |
| FriendsApi.AreFriendsSymmetric | src/utils/friends.js:45-48 | the answer does not depend on argument order |
| FriendsApi.NoAcceptedRowNoFriends | src/utils/friends.js:41-51 | pending or rejected rows alone never make two users friends |
| ChatWindow.IsExpired | src/components/chat/Chat.jsx:12-15 | only AI entries can expire, and an AI entry expires exactly when more than 48 hours have passed since its timestamp; stored rows have no timestamp and never expire |
| ChatWindow.CleanExpired | src/components/chat/Chat.jsx:18-19 | keeps exactly the entries not older than 48 hours, with their multiplicity, in order |
| ChatWindow.ExpiryBoundary | src/components/chat/Chat.jsx:12-15 | an entry exactly 48 hours old is kept; one a millisecond older expires |
| ChatWindow.CleanLater | src/components/chat/Chat.jsx:12-19 | cleaning at t1 and then at a later t2 equals cleaning once at t2, so cleaning is idempotent |
| ChatWindow.RecordPreview | src/components/chat/Chat.jsx:103-109 | the chat with the id gets the text and time as its preview; every other chat is unchanged |
| ChatWindow.SendToChat | src/components/chat/Chat.jsx:85-126 | without a user or with a failed insert nothing changes; otherwise the row is stored with the next id, appended locally, the other tables' rows are kept, and the preview changes only when its update succeeds |
| ChatWindow.SendLocally | src/components/chat/Chat.jsx:129-171 | the backend is untouched; the user's entry follows the earlier entries, the AI chat calls the helper with the prompt and the earlier conversation and adds exactly one bot entry after the user's entry, and the cleaned conversation is written exactly when a user id is cached |
| ChatWindow.HandleSend | src/components/chat/Chat.jsx:81-172 | blank text changes nothing; in a person-to-person chat the row is stored and appended locally exactly when there is a user and the insert succeeds, and the preview is updated only when that update succeeds; otherwise the user's entry is appended, and in the AI chat, and only there, the helper is called once with the prompt and the conversation before that entry and one bot entry follows; and the cleaned conversation is written exactly when a user id is cached |
| ChatWindow.ReceiveRealtime | src/components/chat/Chat.jsx:64-66 | the pushed row goes last; earlier entries are unchanged |
| AiModels.ModelId | src/utils/aiModels.js:26 | a listed key gives its model id; any other key gives nemotron's |
| AiModels.HistoryEntry | src/utils/aiModels.js:30-33 | an AI entry keeps its text, with the user role exactly when it is the user's; a stored row becomes an assistant entry without content |
| AiModels.HistoryEntries | src/utils/aiModels.js:30-33 | one payload entry per history item, in order, each the item's own entry |
| AiModels.Payload | src/utils/aiModels.js:29-35 | the history's entries in order, each AI entry with its text and role and each stored row as an assistant entry without content, then the prompt as the final user entry |
| AiModels.ContentReply | src/utils/aiModels.js:57 | a present, non-blank content gives its trimmed text, which is non-empty and has no whitespace at either end; a missing or blank content gives "⚠️ No response received." |
| AiModels.ReplyText | src/utils/aiModels.js:50-61 | a network failure gives the request-failed text; an error status gives the warning plus the error message, or "Something went wrong."; otherwise the trimmed content, or "⚠️ No response received." when it is missing or blank; never empty |
| AiModels.GetAIResponse | src/utils/aiModels.js:17-62 | a missing key sends nothing and returns the missing-key text; otherwise exactly one request, carrying the chosen model and the full payload (history, then prompt), whose reply is the response's reply text |
| EmailOtp.GenerateOtp | src/utils/sendEmailOTP.js:7 | six decimal digits with no leading zero, denoting 100000 plus the draw |
| EmailOtp.Decimal | src/utils/sendEmailOTP.js:7 | `toString` of a natural number: at least one decimal digit, no leading zero for numbers from 10 |
| EmailOtp.DecimalRoundTrip | src/utils/sendEmailOTP.js:7 | reading back a number's decimal string gives the number |
| EmailOtp.SendEmailOtp | src/utils/sendEmailOTP.js:9-41 | success exactly when both the write and the mail succeed; a failed write changes nothing; otherwise the address's record is replaced by an unverified one that expires in ten minutes, and other addresses are untouched |
| EmailOtp.VerifyEmailOtp | src/utils/verifyEmailOTP.js:5-32 | a missing record gives "not found"; an expired one is deleted; a wrong code gives "invalid"; a right code within the lifetime marks the record verified; success exactly in the last case |
| EmailOtp.OnlySixDigitCodesVerify | src/utils/verifyEmailOTP.js:23-26 | send and verify keep every stored code six digits, so only a six-digit entry can verify |
| EmailOtp.CodeVerifiesWithinTenMinutes | src/utils/sendEmailOTP.js:12 | the mailed code verifies up to and including ten minutes after the send |
| EmailOtp.CodeExpiresAfterTenMinutes | src/utils/verifyEmailOTP.js:17-21 | after ten minutes even the right code fails and the record is gone |
| EmailOtp.ResendReplacesCode | src/utils/sendEmailOTP.js:15-21 | after a second send, the first code no longer verifies unless the draws coincide |
| ResponsiveView.Classify | src/hooks/useResponsiveView.jsx:7-12 | mobile exactly below 768, tablet exactly from 768 to below 1024, desktop exactly from 1024 |
| ResponsiveView.ClassifyMonotone | src/hooks/useResponsiveView.jsx:9-11 | a wider window never gets a narrower layout |
| ResponsiveView.ViewAfter | src/hooks/useResponsiveView.jsx:4-15 | desktop before any measurement; afterwards the last width alone decides |
| Text.Trim | src/components/chat/Chat.jsx:82 | the result is an infix of the input with no whitespace at either end, and only whitespace was removed |
| Text.BlankIffAllWhitespace | src/components/chat/Chat.jsx:82 | the trimmed text is empty exactly when every character is JavaScript whitespace |
| Text.TrimIdempotent | src/utils/aiModels.js:57 | trimming twice equals trimming once |
| Rows.RowsBetween | src/components/chatlist/ChatList.jsx:103-106 | exactly the rows linking the two users in either direction; non-empty exactly when such a row exists |
| Rows.RowsBetweenSymmetric | src/components/chatlist/ChatList.jsx:106 | the lookup does not depend on which user is the sender |
| Rows.SetStatus | src/pages/FriendRequestsPage.jsx:56-59 | rows with the id take the new status; every other row is unchanged |
| Rows.ChatsWith | src/pages/FriendRequestsPage.jsx:64-67 | exactly the chats whose participants contain both users; non-empty exactly when such a chat exists |
| Rows.SetStatusKeepsPairs | src/pages/FriendRequestsPage.jsx:98-101 | a status update preserves "at most one row per pair" |
| Scenarios.AcceptMakesFriends | src/pages/FriendRequestsPage.jsx:53-93 | a completed accept makes the two users friends in both argument orders |
| Scenarios.FreshPairSend | src/components/chatlist/ChatList.jsx:99-128 | for a pair with no rows the guarded send succeeds, appends exactly the pending row, keeps both invariants, and the new id names only that row |
| Scenarios.RequestAcceptLifecycle | src/components/chatlist/ChatList.jsx:99-128 | a send then accept for a fresh pair leaves them friends with exactly one chat, the request gone from `received`, both invariants kept, and further sends from either side refused |
| Scenarios.RejectionBlocksForever | src/pages/FriendRequestsPage.jsx:96-111 | after a rejection, neither user can send a new request on the guarded path |
| Scenarios.RejectedRequestCanStillBeAccepted | src/pages/FriendRequestsPage.jsx:37-43 | after a rejection and a reload the rejected request is listed again, accepting it succeeds, and the two users are then friends |
| Scenarios.SentMessageBecomesPreview | src/components/chat/Chat.jsx:103-109 | in a window given a chat row's id, a sent message whose preview update succeeds becomes that chat's preview line |
| Scenarios.SendWithoutMatchingChatKeepsPreviews | src/components/chat/Chat.jsx:103-109 | when no chat row carries the window's id, as with the counterpart's user id the chat list passes, sending changes no chat row |
| Scenarios.AIChatUsesHelperReply | src/components/chat/Chat.jsx:146-171 | the helper call the AI chat makes carries the earlier conversation's entries in order followed by the prompt as the last entry; when the helper answers that call, the bot entry shows its reply, which is never empty |

## Left out

- **Network and transport:** Supabase and OpenRouter requests, EmailJS, and Firestore. Each is replaced by an input that gives its outcome.
- **Realtime channels:** subscribing and removing channels is lifecycle plumbing. Only the callbacks' effects are modelled.
- **Concurrency:** interleavings of asynchronous handlers and races between two clients are not modelled. Every handler runs to completion on one store.
- **Inputs standing in for the environment:**
  - `Math.random`: the draw is an input.
  - `Date.now()` and `new Date()`: the clock is an integer input.
  - The API key: a missing key is the empty string.
  - The status column default: a parameter.
- **Local-storage writes:** modelled as the snapshot value that is handed over. The storage key and serialisation are not modelled.
- **Rendering:**
  - toasts and alerts, which appear only as outcome tags;
  - console logging;
  - JSX rendering;
  - the loading flags;
  - the 400 ms search debounce;
  - date formatting.
- **Search query:** the server-side `ilike` match and its limit of 10 rows are not modelled. The model takes the query's returned data as an input.
- ChatList.PreviewText: lengths count code points. The source counts UTF-16 code units, so the two differ for characters outside the Basic Multilingual Plane.
- AiModels.ModelId: keys inherited from `Object.prototype` are not modelled. An ordinary string key either is listed or falls back to nemotron.
- FriendsApi.SendFriendRequest: the return value `data[0]` is not modelled. Without a `select()` that value is null, so the call throws after a successful insert. The model records only the insert.
- Scenarios.SentMessageBecomesPreview: the chat list hands the window the counterpart's user id as the selected chat's id (ChatList.jsx:141), so in the wired client no chat row carries that id and the pair's preview does not change (`Scenarios.SendWithoutMatchingChatKeepsPreviews`).
- EmailOtp.VerifyEmailOtp: errors thrown by `getDoc`, `deleteDoc` and `updateDoc` are not modelled. The record's `expiresAt` is taken as a millisecond integer.
- EmailOtp.SendEmailOtp: the recipient name and the template parameters are not modelled, because they affect only the mail text.
- **Loading and rendering the chat list and messages:** `fetchChats`, `fetchMessages` and the rendering components of the chat list and chat window are not modelled beyond the preview and the send.
- **Insertion order:** rows are assumed to come back in insertion order. This stands in for `created_at` ordering.

=== FILE: ai_models.dfy ===
/** The AI helper (src/utils/aiModels.js): picks a model id, builds the
    chat-completion payload from the conversation so far, and turns the
    service's answer into the one string shown as the bot's reply. The HTTP
    call itself is replaced by its outcome, an `AIResponse` input. */
module AiModels {
  import opened Core
  import opened Text
  import opened Rows

  /** The warning sign (U+26A0 U+FE0F) and a space, which every error text starts with. */
  const Warning := "\U{26A0}\U{FE0F} "
  const MissingKeyText := Warning + "Missing API key. Please check your .env file."
  const DefaultErrorText := "Something went wrong."
  const NoResponseText := Warning + "No response received."
  const RequestFailedText := Warning + "AI request failed. Please check your connection or key."

  /** The `MODELS` table: selector key to service model id. */
  const Models: map<string, string> := map[
    "openai" := "openai/gpt-oss-20b",
    "nemotron" := "nvidia/nemotron-nano-9b-v2",
    "llama" := "meta-llama/llama-3.3-70b-instruct",
    "deepseek" := "deepseek/deepseek-r1-0528"
  ]

  /** `MODELS[model] || MODELS.nemotron`: listed keys map to their id, any other key to nemotron's. */
  function ModelId(key: string): (id: string)
    ensures key in Models ==> id == Models[key]
    ensures key !in Models ==> id == "nvidia/nemotron-nano-9b-v2"
    ensures id in Models.Values
  {
    if key in Models && Models[key] != "" then Models[key] else Models["nemotron"]
  }

  datatype Role = UserRole | AssistantRole

  /** One `{role, content}` entry of the payload; `None` content is a field
      that is `undefined` and therefore dropped when the body is serialised. */
  datatype PayloadEntry = PayloadEntry(role: Role, content: Option<string>)

  /** The payload entry for one history item. Person-to-person rows have no
      `isUser` and no `text`, so they become assistant entries without content. */
  function HistoryEntry(m: Message): (e: PayloadEntry)
    ensures m.AIMessage? ==> e.content == Some(m.text) && (e.role == UserRole <==> m.isUser)
    ensures m.StoredMessage? ==> e == PayloadEntry(AssistantRole, None)
  {
    match m
    case AIMessage(_, text, isUser, _) => PayloadEntry(if isUser then UserRole else AssistantRole, Some(text))
    case StoredMessage(_, _, _, _, _) => PayloadEntry(AssistantRole, None)
  }

  function HistoryEntries(history: seq<Message>): (r: seq<PayloadEntry>)
    ensures |r| == |history|
    ensures forall i :: 0 <= i < |history| ==> r[i] == HistoryEntry(history[i])
  {
    if |history| == 0 then [] else [HistoryEntry(history[0])] + HistoryEntries(history[1..])
  }

  /** The `messages` payload: the history mapped in order, then the prompt as
      the final user entry. */
  function Payload(history: seq<Message>, prompt: string): (p: seq<PayloadEntry>)
    ensures |p| == |history| + 1
    ensures p[..|history|] == HistoryEntries(history)
    ensures p[|history|] == PayloadEntry(UserRole, Some(prompt))
    ensures forall i :: 0 <= i < |history| && history[i].AIMessage? ==>
              p[i].content == Some(history[i].text) && (p[i].role == UserRole <==> history[i].isUser)
    ensures forall i :: 0 <= i < |history| && history[i].StoredMessage? ==>
              p[i] == PayloadEntry(AssistantRole, None)
  {
    HistoryEntries(history) + [PayloadEntry(UserRole, Some(prompt))]
  }

  /** The outcome of the HTTP call: the request or the JSON decoding threw, or
      a response came back with its `ok` flag, `error.message` and the first
      choice's `message.content` (each possibly absent). */
  datatype AIResponse =
    | NetworkFailure
    | HttpResponse(ok: bool, errorMessage: Option<string>, firstContent: Option<string>)

  /** `content?.trim() || "⚠️ No response received."` for the first choice's
      content: the trimmed text, unless it is missing or blank. */
  function ContentReply(content: Option<string>): (t: string)
    ensures content.Some? && !AllWhitespace(content.value) ==>
              t == Trim(content.value) && |t| > 0
              && !IsJsWhitespace(t[0]) && !IsJsWhitespace(t[|t| - 1])
    ensures content.None? || AllWhitespace(content.value) ==> t == NoResponseText
  {
    match content
    case None => NoResponseText
    case Some(c) =>
      BlankIffAllWhitespace(c);
      if IsBlank(c) then NoResponseText else Trim(c)
  }

  /** The string returned for a response. */
  function ReplyText(resp: AIResponse): (t: string)
    ensures resp.NetworkFailure? ==> t == RequestFailedText
    ensures resp.HttpResponse? && !resp.ok ==>
              t == Warning + (if resp.errorMessage.Some? && resp.errorMessage.value != ""
                              then resp.errorMessage.value else DefaultErrorText)
    ensures resp.HttpResponse? && resp.ok && resp.firstContent.Some? && !AllWhitespace(resp.firstContent.value) ==>
              t == Trim(resp.firstContent.value) && |t| > 0
              && !IsJsWhitespace(t[0]) && !IsJsWhitespace(t[|t| - 1])
    ensures resp.HttpResponse? && resp.ok && (resp.firstContent.None? || AllWhitespace(resp.firstContent.value)) ==>
              t == NoResponseText
    ensures |t| > 0
  {
    match resp
    case NetworkFailure => RequestFailedText
    case HttpResponse(ok, errorMessage, firstContent) =>
      if !ok then
        Warning + (if errorMessage.Some? && errorMessage.value != "" then errorMessage.value else DefaultErrorText)
      else ContentReply(firstContent)
  }

  /** What the service is asked: the model id and the payload. */
  datatype AIRequest = AIRequest(model: string, messages: seq<PayloadEntry>)

  /** The request that was sent, if any, and the reply string returned. */
  datatype AIExchange = AIExchange(request: Option<AIRequest>, reply: string)

  /** `getAIResponse(model, prompt, history)`. An empty API key answers with
      the missing-key text and sends nothing. Otherwise one request is built
      from the model id and the payload, and its response becomes the reply.
      The function never throws: every failure ends as a reply string. */
  function GetAIResponse(apiKey: string, modelKey: string, prompt: string, history: seq<Message>, response: AIResponse): (x: AIExchange)
    ensures apiKey == "" ==> x == AIExchange(None, MissingKeyText)
    ensures apiKey != "" ==> x.request.Some? && x.reply == ReplyText(response)
    ensures x.request.Some? ==>
              && x.request.value.model == ModelId(modelKey)
              && x.request.value.messages == Payload(history, prompt)
              && |x.request.value.messages| == |history| + 1
              && x.request.value.messages[|history|] == PayloadEntry(UserRole, Some(prompt))
    ensures |x.reply| > 0
  {
    if apiKey == "" then AIExchange(None, MissingKeyText)
    else AIExchange(Some(AIRequest(ModelId(modelKey), Payload(history, prompt))), ReplyText(response))
  }
}

=== FILE: chat_window.dfy ===
/** The chat window (src/components/chat/Chat.jsx): the 48-hour expiry rule
    for AI-conversation entries, the send handler for person-to-person and AI
    chats, and the realtime append. The clock, the signed-in user and the
    outcome of every backend or AI call are inputs. */
module ChatWindow {
  import opened Core
  import opened Text
  import opened Rows

  const ExpiryHours := 48
  const ExpiryMs := ExpiryHours * 60 * 60 * 1000

  /** `isMessageExpired`: strictly older than 48 hours. A stored row has no
      `timestamp` field; the age is then NaN, and NaN compares false, so such
      a row never expires. */
  predicate IsExpired(m: Message, now: int): (b: bool)
    ensures b ==> m.AIMessage?
    ensures m.AIMessage? ==> (b <==> m.timestamp + ExpiryMs < now)
  {
    match m
    case AIMessage(_, _, _, timestamp) => now - timestamp > ExpiryMs
    case StoredMessage(_, _, _, _, _) => false
  }

  function FreshP(now: int): Message -> bool {
    (m: Message) => !IsExpired(m, now)
  }

  /** `cleanExpiredMessages`: the entries not yet expired, in their order. */
  function CleanExpired(messages: seq<Message>, now: int): (r: seq<Message>)
    ensures forall m :: m in r <==> m in messages && !IsExpired(m, now)
    ensures forall m :: multiset(r)[m] == if IsExpired(m, now) then 0 else multiset(messages)[m]
    ensures IsSubsequence(r, messages)
  {
    FilterIsSubsequence(messages, FreshP(now));
    Filter(messages, FreshP(now))
  }

  /** An entry exactly 48 hours old is kept; one a millisecond older is dropped. */
  lemma ExpiryBoundary(id: int, text: string, isUser: bool, now: int)
    ensures !IsExpired(AIMessage(id, text, isUser, now - ExpiryMs), now)
    ensures IsExpired(AIMessage(id, text, isUser, now - ExpiryMs - 1), now)
  {
  }

  /** Cleaning again later is the same as cleaning once, at the later time:
      an entry expired at one instant stays expired. In particular cleaning is
      idempotent. */
  lemma CleanLater(messages: seq<Message>, t1: int, t2: int)
    requires t1 <= t2
    ensures CleanExpired(CleanExpired(messages, t1), t2) == CleanExpired(messages, t2)
  {
    FilterThenStronger(messages, FreshP(t1), FreshP(t2));
  }

  /** What the window shows: nothing, the AI chat, or a person-to-person chat
      (id 0 is a missing id). */
  datatype Selection = NoSelection | AISelection | Conversation(chatId: nat)

  /** Everything `handleSend` learns from outside: the signed-in user, whether
      the message insert and the preview update succeed, the clock at the send
      and at the reply, the AI call's outcome (`None` if it threw), and the
      component's cached user id. */
  datatype SendEnv = SendEnv(authUser: Option<Id>, insertOk: bool, previewOk: bool,
                             now: int, replyNow: int, aiReply: Option<string>, userId: Option<Id>)

  datatype ChatState = ChatState(store: Store, messages: seq<Message>)

  /** The arguments of one `getAIResponse` call: the prompt and the
      conversation handed over as history. */
  datatype AICall = AICall(prompt: string, history: seq<Message>)

  /** The new state, the cleaned copy of the AI conversation handed to local
      storage (when one is written), and the AI helper call made (if any). */
  datatype SendResult = SendResult(state: ChatState, snapshot: Option<seq<Message>>, aiCall: Option<AICall>)

  const OfflineText := "\U{26A0}\U{FE0F} AI is offline right now."

  /** The preview columns of chat `chatId` take the sent text and time. */
  function RecordPreview(chats: seq<ChatRow>, chatId: nat, text: string, time: int): (r: seq<ChatRow>)
    ensures |r| == |chats|
    ensures forall i :: 0 <= i < |chats| && chats[i].id == chatId ==>
              r[i] == chats[i].(lastMessage := Some(text), lastMessageTime := Some(time))
    ensures forall i :: 0 <= i < |chats| && chats[i].id != chatId ==> r[i] == chats[i]
  {
    if |chats| == 0 then []
    else [if chats[0].id == chatId then chats[0].(lastMessage := Some(text), lastMessageTime := Some(time)) else chats[0]]
         + RecordPreview(chats[1..], chatId, text, time)
  }

  /** The user's own entry in an AI conversation. */
  function UserEntry(text: string, now: int): Message {
    AIMessage(now, text, true, now)
  }

  /** The bot's entry: the reply, or the offline text when the call threw. */
  function BotEntry(reply: Option<string>, replyNow: int): Message {
    AIMessage(replyNow + 1, if reply.Some? then reply.value else OfflineText, false, replyNow)
  }

  /** The person-to-person branch of `handleSend`: insert the message row,
      then update the chat's preview (a failure there is ignored), then append
      the message locally. Without a user, or when the insert fails, nothing
      changes. */
  function SendToChat(chatId: nat, st: ChatState, text: string, env: SendEnv): (r: SendResult)
    ensures r.snapshot.None? && r.aiCall.None?
    ensures !(env.authUser.Some? && env.insertOk) ==> r.state == st
    ensures env.authUser.Some? && env.insertOk ==>
              && r.state.messages == st.messages + [StoredMessage(env.now, chatId, env.authUser.value, text, env.now)]
              && r.state.store.messages == st.store.messages + [StoredMessage(st.store.nextId, chatId, env.authUser.value, text, env.now)]
              && r.state.store.requests == st.store.requests
              && r.state.store.chats == (if env.previewOk then RecordPreview(st.store.chats, chatId, text, env.now)
                                         else st.store.chats)
  {
    match env.authUser
    case None => SendResult(st, None, None)
    case Some(u) =>
      if !env.insertOk then SendResult(st, None, None)
      else
        var row := StoredMessage(st.store.nextId, chatId, u, text, env.now);
        var s1 := st.store.(messages := st.store.messages + [row], nextId := st.store.nextId + 1);
        var s2 := if env.previewOk then s1.(chats := RecordPreview(s1.chats, chatId, text, env.now)) else s1;
        var local := StoredMessage(env.now, chatId, u, text, env.now);
        SendResult(ChatState(s2, st.messages + [local]), None, None)
  }

  /** The local branch of `handleSend`: the user's entry is appended at once
      (and, with a cached user id, the cleaned conversation is handed to local
      storage); in the AI chat the helper is called with the prompt and the
      conversation as it was before the new entry, and exactly one bot entry
      follows. The backend is not touched. */
  function SendLocally(toAI: bool, st: ChatState, text: string, env: SendEnv): (r: SendResult)
    ensures r.state.store == st.store
    ensures |r.state.messages| == |st.messages| + (if toAI then 2 else 1)
    ensures r.state.messages[..|st.messages|] == st.messages
    ensures r.state.messages[|st.messages|] == UserEntry(text, env.now)
    ensures toAI ==> r.state.messages[|st.messages| + 1] == BotEntry(env.aiReply, env.replyNow)
    ensures r.snapshot.Some? <==> env.userId.Some?
    ensures r.snapshot.Some? ==> r.snapshot.value == CleanExpired(st.messages + [UserEntry(text, env.now)], env.now)
    ensures toAI <==> r.aiCall.Some?
    ensures toAI ==> r.aiCall.value == AICall(text, st.messages)
  {
    var withUser := st.messages + [UserEntry(text, env.now)];
    var snapshot := if env.userId.Some? then Some(CleanExpired(withUser, env.now)) else None;
    if toAI then
      SendResult(ChatState(st.store, withUser + [BotEntry(env.aiReply, env.replyNow)]), snapshot,
                 Some(AICall(text, st.messages)))
    else
      SendResult(ChatState(st.store, withUser), snapshot, None)
  }

  /** `handleSend(text)`. Blank text does nothing; a selected chat with an id
      takes the person-to-person branch; anything else, the AI chat included,
      takes the local branch. */
  function HandleSend(sel: Selection, st: ChatState, text: string, env: SendEnv): (r: SendResult)
    ensures AllWhitespace(text) ==> r == SendResult(st, None, None)
    ensures r.aiCall.Some? <==> sel.AISelection? && !AllWhitespace(text)
    ensures r.aiCall.Some? ==> r.aiCall.value == AICall(text, st.messages)
    ensures sel.Conversation? && sel.chatId != 0 ==>
              && r.snapshot.None?
              && (r.state == st || (env.authUser.Some? && env.insertOk && !AllWhitespace(text)))
              && (env.authUser.Some? && env.insertOk && !AllWhitespace(text) ==>
                    && r.state.messages == st.messages + [StoredMessage(env.now, sel.chatId, env.authUser.value, text, env.now)]
                    && r.state.store.messages == st.store.messages + [StoredMessage(st.store.nextId, sel.chatId, env.authUser.value, text, env.now)]
                    && r.state.store.requests == st.store.requests
                    && r.state.store.chats == (if env.previewOk then RecordPreview(st.store.chats, sel.chatId, text, env.now)
                                               else st.store.chats))
    ensures !(sel.Conversation? && sel.chatId != 0) && !AllWhitespace(text) ==>
              && r.state.store == st.store
              && |r.state.messages| == |st.messages| + (if sel.AISelection? then 2 else 1)
              && r.state.messages[..|st.messages|] == st.messages
              && r.state.messages[|st.messages|] == UserEntry(text, env.now)
              && (sel.AISelection? ==> r.state.messages[|st.messages| + 1] == BotEntry(env.aiReply, env.replyNow))
              && (r.snapshot.Some? <==> env.userId.Some?)
              && (r.snapshot.Some? ==> r.snapshot.value == CleanExpired(st.messages + [UserEntry(text, env.now)], env.now))
  {
    BlankIffAllWhitespace(text);
    if IsBlank(text) then SendResult(st, None, None)
    else if sel.Conversation? && sel.chatId != 0 then SendToChat(sel.chatId, st, text, env)
    else SendLocally(sel.AISelection?, st, text, env)
  }

  /** The realtime insert handler: the pushed row goes at the end, earlier
      entries are untouched. */
  function ReceiveRealtime(messages: seq<Message>, row: Message): (r: seq<Message>)
    ensures |r| == |messages| + 1 && r[..|messages|] == messages && r[|messages|] == row
  {
    messages + [row]
  }
}

=== FILE: chatlist.dfy ===
/** The chat list panel (src/components/chatlist/ChatList.jsx): the guarded
    friend-request send, the "request sent" marker, the user search, opening a
    chat, and the one-line preview of each chat's last message. */
module ChatList {
  import opened Core
  import opened Text
  import opened Rows

  /** An entry of the panel's local `friendRequests` list (outgoing only). */
  datatype SentEntry = SentEntry(receiver: Id, status: Status)

  /** The backend plus the panel's local list of outgoing requests. */
  datatype ListState = ListState(store: Store, sent: seq<SentEntry>)

  /** Which toast the send ends with (none when it is ignored). */
  datatype SendOutcome = Ignored | AlreadyExists | RequestSent | SendFailed

  datatype SendResult = SendResult(state: ListState, outcome: SendOutcome)

  /** The row a successful guarded send inserts. */
  function PendingRow(st: Store, sender: Id, receiver: Id): FriendRequest {
    FriendRequest(st.nextId, sender, receiver, Pending)
  }

  /** `sendFriendRequest(receiver)`. Nothing happens without a logged-in user
      or for a request to oneself. Otherwise the pair's rows are looked up in
      both directions, whatever their status; any row blocks the send. When the
      lookup itself fails its result is undefined and the guard lets the send
      through. A successful insert adds one pending row and one local entry. */
  function SendFriendRequest(user: Option<Id>, receiver: Id, st: ListState, checkOk: bool, insertOk: bool): (r: SendResult)
    ensures r.outcome != RequestSent ==> r.state == st
    ensures r.outcome == Ignored <==> user.None? || user.value == receiver
    ensures r.outcome == AlreadyExists <==>
              user.Some? && user.value != receiver && checkOk
              && exists i :: 0 <= i < |st.store.requests| && Between(st.store.requests[i], user.value, receiver)
    ensures r.outcome == RequestSent <==>
              user.Some? && user.value != receiver && insertOk
              && !(checkOk && exists i :: 0 <= i < |st.store.requests| && Between(st.store.requests[i], user.value, receiver))
    ensures r.outcome == RequestSent ==>
              && r.state.store.requests == st.store.requests + [PendingRow(st.store, user.value, receiver)]
              && r.state.store.chats == st.store.chats
              && r.state.store.messages == st.store.messages
              && r.state.store.nextId == st.store.nextId + 1
              && r.state.sent == st.sent + [SentEntry(receiver, Pending)]
              && IsRequestSent(r.state.sent, receiver)
  {
    if user.None? || user.value == receiver then SendResult(st, Ignored)
    else
      var u := user.value;
      var existing := if checkOk then RowsBetween(st.store.requests, u, receiver) else [];
      if |existing| > 0 then
        SendResult(st, AlreadyExists)
      else if !insertOk then
        SendResult(st, SendFailed)
      else
        var store' := st.store.(requests := st.store.requests + [PendingRow(st.store, u, receiver)],
                                nextId := st.store.nextId + 1);
        var sent' := st.sent + [SentEntry(receiver, Pending)];
        assert sent'[|st.sent|].receiver == receiver;
        SendResult(ListState(store', sent'), RequestSent)
  }

  /** `isRequestSent(userId)`: some local outgoing entry targets `userId`,
      whatever its status. */
  function IsRequestSent(sent: seq<SentEntry>, userId: Id): (b: bool)
    ensures b <==> exists i :: 0 <= i < |sent| && sent[i].receiver == userId
  {
    |sent| > 0 && (sent[0].receiver == userId || IsRequestSent(sent[1..], userId))
  }

  function ToEntries(rows: seq<FriendRequest>): (r: seq<SentEntry>)
    ensures |r| == |rows|
    ensures forall i :: 0 <= i < |rows| ==> r[i] == SentEntry(rows[i].receiver, rows[i].status)
  {
    if |rows| == 0 then [] else [SentEntry(rows[0].receiver, rows[0].status)] + ToEntries(rows[1..])
  }

  /** The user's outgoing rows as (receiver, status) entries, in store order:
      what the outgoing-requests query returns. */
  function SentEntries(user: Id, rows: seq<FriendRequest>): (r: seq<SentEntry>)
    ensures forall e :: e in r <==> exists i :: 0 <= i < |rows| && rows[i].sender == user
                                                && e == SentEntry(rows[i].receiver, rows[i].status)
  {
    var kept := Filter(rows, SentByP(user));
    assert forall i :: 0 <= i < |rows| && rows[i].sender == user ==> rows[i] in kept;
    ToEntries(kept)
  }

  /** `fetchFriendRequests`: without a user nothing happens; a query that
      fails (or answers with no data) leaves the local list as it was;
      otherwise the list becomes the user's outgoing entries. */
  function FetchSent(user: Option<Id>, previous: seq<SentEntry>, rows: seq<FriendRequest>, queryOk: bool): (r: seq<SentEntry>)
    ensures user.None? || !queryOk ==> r == previous
    ensures user.Some? && queryOk ==>
              forall e :: e in r <==> exists i :: 0 <= i < |rows| && rows[i].sender == user.value
                                                  && e == SentEntry(rows[i].receiver, rows[i].status)
  {
    if user.None? || !queryOk then previous else SentEntries(user.value, rows)
  }

  /** The marker reads outgoing rows only: after a refetch it shows exactly for
      the users this user has sent a row to, pending, accepted or rejected. */
  lemma RequestSentMeansOutgoingRow(user: Id, rows: seq<FriendRequest>, v: Id)
    ensures IsRequestSent(SentEntries(user, rows), v) <==>
            exists i :: 0 <= i < |rows| && rows[i].sender == user && rows[i].receiver == v
  {
    var f := SentEntries(user, rows);
    if IsRequestSent(f, v) {
      var k :| 0 <= k < |f| && f[k].receiver == v;
      assert f[k] in f;
    } else {
      forall i | 0 <= i < |rows| && rows[i].sender == user
        ensures rows[i].receiver != v
      {
        var e := SentEntry(rows[i].receiver, rows[i].status);
        assert e in f;
      }
    }
  }

  /** The optimistic local append agrees with what a refetch after the insert
      returns (rows are returned in insertion order). */
  lemma {:induction false} OptimisticEntryMatchesRefetch(user: Id, receiver: Id, st: ListState, checkOk: bool, insertOk: bool)
    requires st.sent == SentEntries(user, st.store.requests)
    requires SendFriendRequest(Some(user), receiver, st, checkOk, insertOk).outcome == RequestSent
    ensures var r := SendFriendRequest(Some(user), receiver, st, checkOk, insertOk);
            r.state.sent == SentEntries(user, r.state.store.requests)
  {
    var row := PendingRow(st.store, user, receiver);
    var rows := st.store.requests;
    FilterAppend(rows, [row], SentByP(user));
    assert Filter([row], SentByP(user)) == [row];
    ToEntriesAppend(Filter(rows, SentByP(user)), [row]);
  }

  lemma ToEntriesAppend(a: seq<FriendRequest>, b: seq<FriendRequest>)
    ensures ToEntries(a + b) == ToEntries(a) + ToEntries(b)
  {
  }

  /** Guarded-path invariant: when the lookup answers, a send never creates a
      second row for a pair. */
  lemma GuardedSendKeepsOneRowPerPair(user: Option<Id>, receiver: Id, st: ListState, insertOk: bool)
    requires AtMostOnePerPair(st.store.requests)
    ensures AtMostOnePerPair(SendFriendRequest(user, receiver, st, true, insertOk).state.store.requests)
  {
    var r := SendFriendRequest(user, receiver, st, true, insertOk);
    if r.outcome == RequestSent {
      var rows := st.store.requests;
      var rows' := r.state.store.requests;
      var n := |rows|;
      forall i, j | 0 <= i < j < |rows'|
        ensures !Between(rows'[j], rows'[i].sender, rows'[i].receiver)
      {
        if j == n {
          assert rows'[i] == rows[i];
          assert !Between(rows[i], user.value, receiver);
        } else {
          assert rows'[i] == rows[i] && rows'[j] == rows[j];
        }
      }
    }
  }

  /** The guard fails open: if the lookup errors while a row already exists,
      a second row for the pair is inserted. */
  lemma FailedLookupAdmitsDuplicate()
    ensures var st := ListState(Store([FriendRequest(1, "a", "b", Pending)], [], [], 2), []);
            var r := SendFriendRequest(Some("a"), "b", st, false, true);
            r.outcome == RequestSent && !AtMostOnePerPair(r.state.store.requests)
  {
    var st := ListState(Store([FriendRequest(1, "a", "b", Pending)], [], [], 2), []);
    var r := SendFriendRequest(Some("a"), "b", st, false, true);
    var rows' := r.state.store.requests;
    assert rows'[1] == FriendRequest(2, "a", "b", Pending);
    assert Between(rows'[1], rows'[0].sender, rows'[0].receiver);
  }

  /** Any existing row blocks a new request from either side, so a rejected
      request is never followed by a new one on this path. */
  lemma AnyRowBlocksBothSides(a: Id, b: Id, st: ListState, row: FriendRequest, insertOk: bool)
    requires a != b
    requires row in st.store.requests && Between(row, a, b)
    ensures SendFriendRequest(Some(a), b, st, true, insertOk) == SendResult(st, AlreadyExists)
    ensures SendFriendRequest(Some(b), a, st, true, insertOk) == SendResult(st, AlreadyExists)
  {
    var i :| 0 <= i < |st.store.requests| && st.store.requests[i] == row;
    assert Between(st.store.requests[i], b, a);
  }

  /** Two sends in a row to the same user leave at most one row for the pair,
      and exactly one when either insert succeeded. */
  lemma TwoSendsLeaveOneRow(u: Id, v: Id, st: ListState, ok1: bool, ok2: bool)
    requires u != v
    requires RowsBetween(st.store.requests, u, v) == []
    ensures var r1 := SendFriendRequest(Some(u), v, st, true, ok1);
            var r2 := SendFriendRequest(Some(u), v, r1.state, true, ok2);
            |RowsBetween(r2.state.store.requests, u, v)| == (if ok1 || ok2 then 1 else 0)
  {
    var r1 := SendFriendRequest(Some(u), v, st, true, ok1);
    var rows := st.store.requests;
    if ok1 {
      var row := PendingRow(st.store, u, v);
      FilterAppend(rows, [row], BetweenP(u, v));
      assert Filter([row], BetweenP(u, v)) == [row];
      assert r1.state.store.requests[|rows|] == row;
    } else {
      var r2 := SendFriendRequest(Some(u), v, r1.state, true, ok2);
      if ok2 {
        var row := PendingRow(st.store, u, v);
        FilterAppend(rows, [row], BetweenP(u, v));
        assert Filter([row], BetweenP(u, v)) == [row];
      }
    }
  }

  /** A user profile as returned by the search query. */
  datatype Profile = Profile(id: Id, name: string, username: string)

  function NotUserP(user: Option<Id>): Profile -> bool {
    (p: Profile) => user.None? || p.id != user.value
  }

  /** The search self-filter: the query's results minus the logged-in user,
      in the order the query returned them. */
  function SearchResults(user: Option<Id>, data: seq<Profile>): (r: seq<Profile>)
    ensures forall p :: p in r <==> p in data && (user.None? || p.id != user.value)
    ensures user.Some? ==> forall i :: 0 <= i < |r| ==> r[i].id != user.value
    ensures forall p :: multiset(r)[p] == if user.Some? && p.id == user.value then 0 else multiset(data)[p]
    ensures IsSubsequence(r, data)
  {
    FilterIsSubsequence(data, NotUserP(user));
    Filter(data, NotUserP(user))
  }

  /** One run of the debounced search: a blank query clears the results; a
      failed query keeps the previous results; otherwise the filtered data. */
  function SearchUpdate(previous: seq<Profile>, query: string, user: Option<Id>, response: Option<seq<Profile>>): (r: seq<Profile>)
    ensures AllWhitespace(query) ==> r == []
    ensures !AllWhitespace(query) && response.None? ==> r == previous
    ensures !AllWhitespace(query) && response.Some? ==> r == SearchResults(user, response.value)
  {
    BlankIffAllWhitespace(query);
    if IsBlank(query) then []
    else match response
      case None => previous
      case Some(data) => SearchResults(user, data)
  }

  /** The participant of a chat who is not the user (`participants.find`). */
  function Counterpart(user: Id, participants: seq<Id>): (r: Option<Id>)
    ensures r.None? <==> forall i :: 0 <= i < |participants| ==> participants[i] == user
    ensures r.Some? ==> r.value != user && r.value in participants
    ensures r.Some? ==> exists k :: 0 <= k < |participants| && participants[k] == r.value
                                    && forall j :: 0 <= j < k ==> participants[j] == user
  {
    FindFirst(participants, (p: Id) => p != user)
  }

  /** For a two-party chat the counterpart is the other party, whichever
      order the participants were stored in. */
  lemma CounterpartOfPair(u: Id, v: Id)
    requires u != v
    ensures Counterpart(u, [u, v]) == Some(v)
    ensures Counterpart(u, [v, u]) == Some(v)
  {
    var ps := [u, v];
    assert ps[1] != u;
    var r := Counterpart(u, ps);
    var k :| 0 <= k < |ps| && ps[k] == r.value && forall j :: 0 <= j < k ==> ps[j] == u;
    assert ps[0] == u && r.value != u;
    assert k == 1;
    var qs := [v, u];
    assert qs[0] != u;
    var q := Counterpart(u, qs);
    var m :| 0 <= m < |qs| && qs[m] == q.value && forall j :: 0 <= j < m ==> qs[j] == u;
    assert m == 0;
  }

  datatype OpenResult = NotOpened | Opened(counterpart: Option<Id>)

  /** `handleOpenChat(chat)`: a chat without a (truthy) id is not opened; the
      friend id handed on is the counterpart. Without a user the `find`
      callback throws as soon as it is called, i.e. unless the list is empty. */
  function OpenChat(user: Option<Id>, chat: ChatRow): (r: OpenResult)
    ensures chat.id == 0 ==> r == NotOpened
    ensures chat.id != 0 && user.Some? ==> r == Opened(Counterpart(user.value, chat.participants))
    ensures chat.id != 0 && user.None? ==> (r == NotOpened <==> |chat.participants| > 0)
    ensures r.Opened? && r.counterpart.Some? ==> user.Some? && r.counterpart.value != user.value
  {
    if chat.id == 0 then NotOpened
    else match user
      case Some(u) => Opened(Counterpart(u, chat.participants))
      case None => if |chat.participants| == 0 then Opened(None) else NotOpened
  }

  const PreviewLimit := 28
  const Ellipsis := "..."
  const NoMessagesText := "No messages yet"

  /** The preview line under each chat: a missing or empty last message reads
      "No messages yet"; one longer than 28 characters is cut to its first 28
      plus "..."; anything else is shown as is. */
  function PreviewText(lastMessage: Option<string>): (p: string)
    ensures lastMessage.None? || lastMessage.value == "" ==> p == NoMessagesText
    ensures lastMessage.Some? && 0 < |lastMessage.value| <= PreviewLimit ==> p == lastMessage.value
    ensures lastMessage.Some? && |lastMessage.value| > PreviewLimit ==>
              |p| == PreviewLimit + |Ellipsis|
              && p[..PreviewLimit] == lastMessage.value[..PreviewLimit]
              && p[PreviewLimit..] == Ellipsis
    ensures |p| <= PreviewLimit + |Ellipsis|
  {
    match lastMessage
    case None => NoMessagesText
    case Some(m) =>
      if m == "" then NoMessagesText
      else if |m| > PreviewLimit then m[..PreviewLimit] + Ellipsis
      else m
  }
}

=== FILE: core.dfy ===
/** Shared vocabulary of the chat client model: opaque identifiers, optional
    values, and the order-preserving list operations (`Array.prototype.filter`,
    `find`, reversal) that the client applies to query results and local state. */
module Core {

  /** User identifiers are opaque strings issued by the hosted auth service. */
  type Id = string

  datatype Option<T> = None | Some(value: T)

  /** `s.filter(p)`: the elements of `s` that satisfy `p`, in their original order. */
  function Filter<T(==,!new)>(s: seq<T>, p: T -> bool): (r: seq<T>)
    ensures |r| <= |s|
    ensures forall x :: x in r <==> x in s && p(x)
    ensures forall i :: 0 <= i < |r| ==> p(r[i])
    ensures forall x :: multiset(r)[x] == if p(x) then multiset(s)[x] else 0
  {
    if |s| == 0 then []
    else
      assert s == [s[0]] + s[1..];
      if p(s[0]) then [s[0]] + Filter(s[1..], p)
      else Filter(s[1..], p)
  }

  /** `a` is obtained from `b` by deleting elements without reordering the rest. */
  predicate IsSubsequence<T(==)>(a: seq<T>, b: seq<T>)
    decreases |b|
  {
    |a| == 0 ||
    (|b| > 0 && ((a[0] == b[0] && IsSubsequence(a[1..], b[1..])) || IsSubsequence(a, b[1..])))
  }

  /** Filtering only deletes: the kept elements appear in the input's order. */
  lemma {:induction false} FilterIsSubsequence<T(!new)>(s: seq<T>, p: T -> bool)
    ensures IsSubsequence(Filter(s, p), s)
  {
    if |s| > 0 {
      FilterIsSubsequence(s[1..], p);
      var t := Filter(s[1..], p);
      if p(s[0]) {
        assert Filter(s, p) == [s[0]] + t;
        assert ([s[0]] + t)[1..] == t;
      }
    }
  }

  /** Filtering distributes over concatenation. */
  lemma {:induction false} FilterAppend<T(!new)>(a: seq<T>, b: seq<T>, p: T -> bool)
    ensures Filter(a + b, p) == Filter(a, p) + Filter(b, p)
  {
    if |a| == 0 {
      assert a + b == b;
    } else {
      assert (a + b)[0] == a[0];
      assert (a + b)[1..] == a[1..] + b;
      FilterAppend(a[1..], b, p);
    }
  }

  /** Filtering by a weaker test first changes nothing: if `q` implies `p`,
      keeping `p` and then `q` is the same as keeping `q`. */
  lemma {:induction false} FilterThenStronger<T(!new)>(s: seq<T>, p: T -> bool, q: T -> bool)
    requires forall x :: q(x) ==> p(x)
    ensures Filter(Filter(s, p), q) == Filter(s, q)
  {
    if |s| > 0 {
      FilterThenStronger(s[1..], p, q);
      if p(s[0]) {
        assert Filter(s, p) == [s[0]] + Filter(s[1..], p);
        assert ([s[0]] + Filter(s[1..], p))[1..] == Filter(s[1..], p);
      }
    }
  }

  /** Two tests that agree everywhere keep the same elements. */
  lemma {:induction false} FilterSameTest<T(!new)>(s: seq<T>, p: T -> bool, q: T -> bool)
    requires forall x :: p(x) == q(x)
    ensures Filter(s, p) == Filter(s, q)
  {
    if |s| > 0 {
      FilterSameTest(s[1..], p, q);
    }
  }

  /** `s.find(p)`: the first element satisfying `p`, or nothing. */
  function FindFirst<T(==)>(s: seq<T>, p: T -> bool): (r: Option<T>)
    ensures r.None? <==> forall i :: 0 <= i < |s| ==> !p(s[i])
    ensures r.Some? ==> r.value in s && p(r.value)
    ensures r.Some? ==> exists k :: 0 <= k < |s| && s[k] == r.value && forall j :: 0 <= j < k ==> !p(s[j])
  {
    if |s| == 0 then None
    else if p(s[0]) then Some(s[0])
    else
      var r := FindFirst(s[1..], p);
      if r.Some? then
        var k :| 0 <= k < |s[1..]| && s[1..][k] == r.value && forall j :: 0 <= j < k ==> !p(s[1..][j]);
        assert s[k + 1] == r.value;
        r
      else r
  }

  /** The list read back to front. */
  function Reverse<T>(s: seq<T>): (r: seq<T>)
    ensures |r| == |s|
    ensures forall i :: 0 <= i < |s| ==> r[i] == s[|s| - 1 - i]
    ensures multiset(r) == multiset(s)
  {
    if |s| == 0 then []
    else
      assert s == [s[0]] + s[1..];
      Reverse(s[1..]) + [s[0]]
  }

  /** Reversing twice restores the list. */
  lemma ReverseInvolutive<T>(s: seq<T>)
    ensures Reverse(Reverse(s)) == s
  {
  }
}

=== FILE: email_otp.dfy ===
/** The e-mail one-time-password flow (src/utils/sendEmailOTP.js and
    src/utils/verifyEmailOTP.js). A six-digit code is stored under the e-mail
    address with a ten-minute expiry and mailed; verification checks, in
    order, that a record exists, that it has not expired (deleting it if it
    has), and that the code matches, and only then marks it verified. The
    random draw, the clock and the success of the store write and of the mail
    are inputs. */
module EmailOtp {

  /** The character of one decimal digit. */
  function DigitChar(d: nat): char
    requires d < 10
  {
    ('0' as int + d) as char
  }

  predicate IsDigits(s: string) {
    forall i :: 0 <= i < |s| ==> '0' <= s[i] <= '9'
  }

  /** `n.toString()` for a natural number: its decimal digits, most
      significant first, with no leading zero. */
  function Decimal(n: nat): (s: string)
    ensures |s| >= 1 && IsDigits(s)
    ensures n >= 10 ==> s[0] != '0'
    decreases n
  {
    if n < 10 then [DigitChar(n)] else Decimal(n / 10) + [DigitChar(n % 10)]
  }

  /** The number a digit string denotes. */
  function DecimalValue(s: string): nat
    requires IsDigits(s)
  {
    if |s| == 0 then 0 else DecimalValue(s[..|s| - 1]) * 10 + (s[|s| - 1] as int - '0' as int)
  }

  /** Reading back the digits gives the number. */
  lemma {:induction false} DecimalRoundTrip(n: nat)
    ensures DecimalValue(Decimal(n)) == n
    decreases n
  {
    if n >= 10 {
      DecimalRoundTrip(n / 10);
      var s := Decimal(n);
      assert s[..|s| - 1] == Decimal(n / 10);
    }
  }

  function Pow10(k: nat): nat {
    if k == 0 then 1 else 10 * Pow10(k - 1)
  }

  /** A number with k digits is written with exactly k characters. */
  lemma {:induction false} DecimalLength(n: nat, k: nat)
    requires k >= 1 && Pow10(k - 1) <= n < Pow10(k)
    ensures |Decimal(n)| == k
    decreases k
  {
    if k > 1 {
      assert Pow10(k - 2) <= n / 10 < Pow10(k - 1);
      DecimalLength(n / 10, k - 1);
    } else {
      assert n < 10;
    }
  }

  const OtpLow := 100000
  const OtpSpan := 900000

  /** `generateOTP()`, with `Math.floor(Math.random() * 900000)` taken as the
      input `draw`: a six-digit code with no leading zero, between 100000 and
      999999. */
  function GenerateOtp(draw: nat): (otp: string)
    requires draw < OtpSpan
    ensures |otp| == 6 && IsDigits(otp) && otp[0] != '0'
    ensures DecimalValue(otp) == OtpLow + draw
    ensures 100000 <= DecimalValue(otp) <= 999999
  {
    var n := OtpLow + draw;
    assert Pow10(5) == 100000 && Pow10(6) == 1000000;
    DecimalLength(n, 6);
    DecimalRoundTrip(n);
    Decimal(n)
  }

  /** A document of `email_otps`, keyed by the e-mail address. */
  datatype OtpRecord = OtpRecord(email: string, otp: string, expiresAt: int, verified: bool, createdAt: int)

  type OtpStore = map<string, OtpRecord>

  const OtpLifetimeMs := 10 * 60 * 1000

  datatype SendOtpResult = SendOtpResult(store: OtpStore, ok: bool)

  /** `sendEmailOTP(email, name)`: writes a fresh record (replacing any earlier
      one for the address), then mails the code. It reports success only when
      both succeed; a mail failure leaves the written record in place. */
  function SendEmailOtp(store: OtpStore, email: string, draw: nat, now: int, serverTime: int, writeOk: bool, mailOk: bool): (r: SendOtpResult)
    requires draw < OtpSpan
    ensures r.ok <==> writeOk && mailOk
    ensures !writeOk ==> r.store == store
    ensures writeOk ==>
              && r.store.Keys == store.Keys + {email}
              && r.store[email] == OtpRecord(email, GenerateOtp(draw), now + OtpLifetimeMs, false, serverTime)
              && (forall e :: e in store && e != email ==> r.store[e] == store[e])
  {
    if !writeOk then SendOtpResult(store, false)
    else
      var rec := OtpRecord(email, GenerateOtp(draw), now + OtpLifetimeMs, false, serverTime);
      SendOtpResult(store[email := rec], mailOk)
  }

  /** Which alert verification ends with. */
  datatype VerifyOutcome = NotFound | Expired | Invalid | Verified

  datatype VerifyResult = VerifyResult(store: OtpStore, ok: bool, outcome: VerifyOutcome)

  /** `verifyEmailOTP(email, enteredOTP)`. */
  function VerifyEmailOtp(store: OtpStore, email: string, entered: string, now: int): (r: VerifyResult)
    ensures r.ok <==> r.outcome == Verified
    ensures email !in store ==> r == VerifyResult(store, false, NotFound)
    ensures email in store && now > store[email].expiresAt ==>
              r == VerifyResult(store - {email}, false, Expired)
    ensures email in store && now <= store[email].expiresAt && entered != store[email].otp ==>
              r == VerifyResult(store, false, Invalid)
    ensures email in store && now <= store[email].expiresAt && entered == store[email].otp ==>
              r == VerifyResult(store[email := store[email].(verified := true)], true, Verified)
  {
    if email !in store then VerifyResult(store, false, NotFound)
    else
      var rec := store[email];
      if now > rec.expiresAt then VerifyResult(store - {email}, false, Expired)
      else if entered != rec.otp then VerifyResult(store, false, Invalid)
      else VerifyResult(store[email := rec.(verified := true)], true, Verified)
  }

  /** Every stored code came from `generateOTP`, so it is six digits. */
  predicate WellFormed(store: OtpStore) {
    forall e :: e in store ==> |store[e].otp| == 6 && IsDigits(store[e].otp) && store[e].email == e
  }

  /** Sending and verifying keep every stored code six digits long, so only a
      six-digit entry can ever verify. */
  lemma OnlySixDigitCodesVerify(store: OtpStore, email: string, entered: string, now: int,
                                draw: nat, sendNow: int, serverTime: int, writeOk: bool, mailOk: bool)
    requires WellFormed(store) && draw < OtpSpan
    ensures WellFormed(SendEmailOtp(store, email, draw, sendNow, serverTime, writeOk, mailOk).store)
    ensures WellFormed(VerifyEmailOtp(store, email, entered, now).store)
    ensures VerifyEmailOtp(store, email, entered, now).ok ==> |entered| == 6 && IsDigits(entered)
  {
  }

  /** The happy path: the mailed code, entered within ten minutes of the send
      (the last millisecond included), verifies. */
  lemma CodeVerifiesWithinTenMinutes(store: OtpStore, email: string, draw: nat, sent: int, serverTime: int, now: int)
    requires draw < OtpSpan && sent <= now <= sent + OtpLifetimeMs
    ensures var s := SendEmailOtp(store, email, draw, sent, serverTime, true, true);
            var v := VerifyEmailOtp(s.store, email, GenerateOtp(draw), now);
            s.ok && v.ok && v.store[email].verified
  {
  }

  /** After ten minutes even the right code fails, and the record is gone. */
  lemma CodeExpiresAfterTenMinutes(store: OtpStore, email: string, draw: nat, sent: int, serverTime: int, now: int, mailOk: bool)
    requires draw < OtpSpan && now > sent + OtpLifetimeMs
    ensures var s := SendEmailOtp(store, email, draw, sent, serverTime, true, mailOk);
            var v := VerifyEmailOtp(s.store, email, GenerateOtp(draw), now);
            !v.ok && v.outcome == Expired && email !in v.store
  {
  }

  /** A second send replaces the first record: the first code no longer
      verifies unless the two draws coincide. */
  lemma ResendReplacesCode(store: OtpStore, email: string, d1: nat, d2: nat, t1: int, t2: int, st1: int, st2: int, now: int)
    requires d1 < OtpSpan && d2 < OtpSpan && d1 != d2
    requires t2 <= now <= t2 + OtpLifetimeMs
    ensures var s1 := SendEmailOtp(store, email, d1, t1, st1, true, true);
            var s2 := SendEmailOtp(s1.store, email, d2, t2, st2, true, true);
            VerifyEmailOtp(s2.store, email, GenerateOtp(d1), now).outcome == Invalid
  {
    assert DecimalValue(GenerateOtp(d1)) != DecimalValue(GenerateOtp(d2));
  }
}

=== FILE: friends.dfy ===
/** The friend helpers (src/utils/friends.js): an unguarded insert, the
    incoming-request subscription filter, a bare accept, and the friendship
    test. None of them consults existing rows before writing. */
module FriendsApi {
  import opened Core
  import opened Rows

  /** `sendFriendRequest(senderId, receiverId)`: inserts a row for the pair
      with no duplicate check; the row's status is whatever the table's column
      default is. `None` is the thrown insert error. */
  function SendFriendRequest(st: Store, sender: Id, receiver: Id, columnDefault: Status, insertOk: bool): (r: Option<Store>)
    ensures r.Some? <==> insertOk
    ensures r.Some? ==>
              && r.value.requests == st.requests + [FriendRequest(st.nextId, sender, receiver, columnDefault)]
              && r.value.chats == st.chats && r.value.messages == st.messages
              && r.value.nextId == st.nextId + 1
  {
    if !insertOk then None
    else Some(st.(requests := st.requests + [FriendRequest(st.nextId, sender, receiver, columnDefault)],
                  nextId := st.nextId + 1))
  }

  /** Two unguarded sends for the same pair leave two rows for it. */
  lemma UnguardedSendDuplicates(st: Store, a: Id, b: Id, d: Status)
    requires AtMostOnePerPair(st.requests)
    ensures var s1 := SendFriendRequest(st, a, b, d, true).value;
            var s2 := SendFriendRequest(s1, a, b, d, true).value;
            !AtMostOnePerPair(s2.requests)
  {
    var s1 := SendFriendRequest(st, a, b, d, true).value;
    var s2 := SendFriendRequest(s1, a, b, d, true).value;
    var n := |st.requests|;
    assert s2.requests[n] == FriendRequest(st.nextId, a, b, d);
    assert s2.requests[n + 1] == FriendRequest(st.nextId + 1, a, b, d);
    assert Between(s2.requests[n + 1], s2.requests[n].sender, s2.requests[n].receiver);
  }

  /** The subscription callback: of the inserted rows it sees, the ones
      addressed to `userId` are passed on, in arrival order; no other row is. */
  function IncomingRequests(userId: Id, inserted: seq<FriendRequest>): (r: seq<FriendRequest>)
    ensures forall x :: x in r <==> x in inserted && x.receiver == userId
    ensures forall x :: multiset(r)[x] == if x.receiver == userId then multiset(inserted)[x] else 0
    ensures IsSubsequence(r, inserted)
  {
    FilterIsSubsequence(inserted, ReceivedByP(userId));
    Filter(inserted, ReceivedByP(userId))
  }

  /** `acceptFriendRequest(requestId)`: the rows with that id become accepted,
      nothing else changes, and no chat is created. */
  function AcceptFriendRequest(st: Store, requestId: nat, updateOk: bool): (r: Option<Store>)
    ensures r.Some? <==> updateOk
    ensures r.Some? ==>
              && |r.value.requests| == |st.requests|
              && (forall i :: 0 <= i < |st.requests| ==>
                    r.value.requests[i] == if st.requests[i].id == requestId
                                           then st.requests[i].(status := Accepted)
                                           else st.requests[i])
              && r.value.chats == st.chats && r.value.messages == st.messages && r.value.nextId == st.nextId
  {
    if !updateOk then None
    else Some(st.(requests := SetStatus(st.requests, requestId, Accepted)))
  }

  /** The bare accept does not create the chat the requests page creates, so
      it can leave an accepted request without one. */
  lemma BareAcceptLeavesNoChat()
    ensures var st := Store([FriendRequest(1, "b", "a", Pending)], [], [], 2);
            !AcceptedHaveChats(AcceptFriendRequest(st, 1, true).value)
  {
    var st := Store([FriendRequest(1, "b", "a", Pending)], [], [], 2);
    assert AcceptFriendRequest(st, 1, true).value.requests[0].status == Accepted;
  }

  function AcceptedBetweenP(a: Id, b: Id): FriendRequest -> bool {
    (r: FriendRequest) => r.status == Accepted && Between(r, a, b)
  }

  /** `areFriends(a, b)`: some accepted row links the two, in either direction.
      `None` is the thrown query error. */
  function AreFriends(rows: seq<FriendRequest>, a: Id, b: Id, queryOk: bool): (r: Option<bool>)
    ensures r.Some? <==> queryOk
    ensures r == Some(true) <==>
              queryOk && exists i :: 0 <= i < |rows| && rows[i].status == Accepted && Between(rows[i], a, b)
  {
    if !queryOk then None
    else
      var found := Filter(rows, AcceptedBetweenP(a, b));
      assert forall i :: 0 <= i < |rows| && rows[i].status == Accepted && Between(rows[i], a, b) ==> rows[i] in found;
      assert |found| > 0 ==> found[0] in rows;
      Some(|found| > 0)
  }

  /** Friendship does not depend on who sent the request. */
  lemma AreFriendsSymmetric(rows: seq<FriendRequest>, a: Id, b: Id, queryOk: bool)
    ensures AreFriends(rows, a, b, queryOk) == AreFriends(rows, b, a, queryOk)
  {
    if queryOk {
      if AreFriends(rows, a, b, queryOk) == Some(true) {
        var i :| 0 <= i < |rows| && rows[i].status == Accepted && Between(rows[i], a, b);
        assert Between(rows[i], b, a);
      }
    }
  }

  /** Pending or rejected rows alone never make two users friends. */
  lemma NoAcceptedRowNoFriends(rows: seq<FriendRequest>, a: Id, b: Id)
    requires forall i :: 0 <= i < |rows| && Between(rows[i], a, b) ==> rows[i].status != Accepted
    ensures AreFriends(rows, a, b, true) == Some(false)
  {
  }
}

=== FILE: requests_page.dfy ===
/** The friend-requests page (src/pages/FriendRequestsPage.jsx): loading the
    sent and received lists, and accepting or rejecting a received request.
    Accepting runs a check-then-create step so that the pair has a chat. */
module RequestsPage {
  import opened Core
  import opened Rows

  /** The backend plus the page's two local lists. */
  datatype PageState = PageState(store: Store, sent: seq<FriendRequest>, received: seq<FriendRequest>)

  /** The user's rows on one side of the relation, newest first. A failed
      query yields the empty list (`data || []`). Rows are stored in creation
      order, so newest first is the reverse of store order. */
  function NewestFirst(rows: seq<FriendRequest>, side: FriendRequest -> bool, ok: bool): (r: seq<FriendRequest>)
    ensures forall x :: x in r <==> ok && x in rows && side(x)
    ensures forall x :: multiset(r)[x] == if ok && side(x) then multiset(rows)[x] else 0
    ensures IsSubsequence(Reverse(r), rows)
  {
    if !ok then []
    else
      var kept := Filter(rows, side);
      FilterIsSubsequence(rows, side);
      ReverseInvolutive(kept);
      Reverse(kept)
  }

  /** The page load: outgoing rows go to `sent`, incoming rows to `received`. */
  function Load(user: Id, store: Store, sentOk: bool, receivedOk: bool): (r: PageState)
    ensures r.store == store
    ensures forall x :: x in r.sent <==> sentOk && x in store.requests && x.sender == user
    ensures forall x :: x in r.received <==> receivedOk && x in store.requests && x.receiver == user
  {
    PageState(store, NewestFirst(store.requests, SentByP(user), sentOk),
                     NewestFirst(store.requests, ReceivedByP(user), receivedOk))
  }

  function OtherIdP(id: nat): FriendRequest -> bool {
    (r: FriendRequest) => r.id != id
  }

  /** `prev.filter((r) => r.id !== req.id)`: the handled request leaves the
      list; every other entry stays, in order. */
  function WithoutRequest(list: seq<FriendRequest>, id: nat): (r: seq<FriendRequest>)
    ensures forall x :: x in r <==> x in list && x.id != id
    ensures forall x :: multiset(r)[x] == if x.id == id then 0 else multiset(list)[x]
    ensures IsSubsequence(r, list)
  {
    FilterIsSubsequence(list, OtherIdP(id));
    Filter(list, OtherIdP(id))
  }

  datatype ActionResult = ActionResult(state: PageState, ok: bool)

  /** The chat an accept inserts when the pair has none. */
  function NewChat(st: Store, user: Id, sender: Id): ChatRow {
    ChatRow(st.nextId, [user, sender], None, None)
  }

  /** `handleAccept(req)`: (1) set the row's status to accepted; (2) look for a
      chat containing both users; (3) insert `[user, sender]` when there is none;
      then drop the request from `received`. Any failing step stops the rest;
      a step that already ran is not undone. */
  function HandleAccept(user: Id, req: FriendRequest, st: PageState, updateOk: bool, checkOk: bool, insertOk: bool): (r: ActionResult)
    ensures !updateOk ==> r == ActionResult(st, false)
    ensures updateOk ==> r.state.store.requests == SetStatus(st.store.requests, req.id, Accepted)
    ensures r.state.sent == st.sent && r.state.store.messages == st.store.messages
    ensures r.ok <==> updateOk && checkOk && (HasChatWith(st.store.chats, user, req.sender) || insertOk)
    ensures r.ok ==> HasChatWith(r.state.store.chats, user, req.sender)
    ensures r.ok ==> r.state.received == WithoutRequest(st.received, req.id)
    ensures !r.ok ==> r.state.received == st.received && r.state.store.chats == st.store.chats
    ensures HasChatWith(st.store.chats, user, req.sender) ==> r.state.store.chats == st.store.chats
    ensures r.ok && !HasChatWith(st.store.chats, user, req.sender) ==>
              r.state.store.chats == st.store.chats + [NewChat(st.store, user, req.sender)]
  {
    if !updateOk then ActionResult(st, false)
    else
      var s1 := st.store.(requests := SetStatus(st.store.requests, req.id, Accepted));
      if !checkOk then ActionResult(st.(store := s1), false)
      else
        var existing := ChatsWith(s1.chats, user, req.sender);
        if |existing| == 0 && !insertOk then ActionResult(st.(store := s1), false)
        else
          var s2 := if |existing| == 0
                    then s1.(chats := s1.chats + [NewChat(s1, user, req.sender)], nextId := s1.nextId + 1)
                    else s1;
          assert |existing| == 0 ==> ChatHas(s2.chats[|s1.chats|], user, req.sender);
          ActionResult(PageState(s2, st.sent, WithoutRequest(st.received, req.id)), true)
  }

  /** `handleReject(req)`: set the row's status to rejected and drop it from
      `received`; chats are never touched. */
  function HandleReject(req: FriendRequest, st: PageState, updateOk: bool): (r: ActionResult)
    ensures r.state.store.chats == st.store.chats && r.state.store.messages == st.store.messages
    ensures r.state.store.nextId == st.store.nextId && r.state.sent == st.sent
    ensures r.ok == updateOk
    ensures !updateOk ==> r.state == st
    ensures updateOk ==> r.state.store.requests == SetStatus(st.store.requests, req.id, Rejected)
                         && r.state.received == WithoutRequest(st.received, req.id)
  {
    if !updateOk then ActionResult(st, false)
    else
      var s1 := st.store.(requests := SetStatus(st.store.requests, req.id, Rejected));
      ActionResult(PageState(s1, st.sent, WithoutRequest(st.received, req.id)), true)
  }

  /** The rows carrying `req`'s id are the request `req` stands for: sent by
      `req.sender` to `user`. */
  predicate IdentifiesRequest(rows: seq<FriendRequest>, req: FriendRequest, user: Id) {
    forall i :: 0 <= i < |rows| && rows[i].id == req.id ==> rows[i].sender == req.sender && rows[i].receiver == user
  }

  /** An accept that completes, or that fails before changing anything, keeps
      "every accepted request has a chat with both users". */
  lemma AcceptKeepsAcceptedChats(user: Id, req: FriendRequest, st: PageState, updateOk: bool, checkOk: bool, insertOk: bool)
    requires AcceptedHaveChats(st.store)
    requires IdentifiesRequest(st.store.requests, req, user)
    requires var r := HandleAccept(user, req, st, updateOk, checkOk, insertOk); r.ok || !updateOk
    ensures AcceptedHaveChats(HandleAccept(user, req, st, updateOk, checkOk, insertOk).state.store)
  {
    var r := HandleAccept(user, req, st, updateOk, checkOk, insertOk);
    if r.ok {
      var rows := st.store.requests;
      var rows' := r.state.store.requests;
      var chats' := r.state.store.chats;
      assert exists more :: chats' == st.store.chats + more by {
        if HasChatWith(st.store.chats, user, req.sender) {
          assert chats' == st.store.chats + [];
        } else {
          assert chats' == st.store.chats + [NewChat(st.store, user, req.sender)];
        }
      }
      var more :| chats' == st.store.chats + more;
      forall i | 0 <= i < |rows'| && rows'[i].status == Accepted
        ensures HasChatWith(chats', rows'[i].sender, rows'[i].receiver)
      {
        if rows[i].id == req.id {
          var k :| 0 <= k < |chats'| && ChatHas(chats'[k], user, req.sender);
          assert ChatHas(chats'[k], rows'[i].sender, rows'[i].receiver);
        } else {
          assert rows'[i] == rows[i];
          HasChatWithGrows(st.store.chats, more, rows[i].sender, rows[i].receiver);
        }
      }
    }
  }

  /** An accept whose chat lookup fails leaves an accepted request with no
      chat: the status update is not rolled back. */
  lemma FailedChatLookupLeavesAcceptedWithoutChat()
    ensures var req := FriendRequest(1, "b", "a", Pending);
            var st := PageState(Store([req], [], [], 2), [], [req]);
            var r := HandleAccept("a", req, st, true, false, true);
            !r.ok && !AcceptedHaveChats(r.state.store)
  {
    var req := FriendRequest(1, "b", "a", Pending);
    var st := PageState(Store([req], [], [], 2), [], [req]);
    var r := HandleAccept("a", req, st, true, false, true);
    assert r.state.store.requests[0].status == Accepted;
  }

  /** Reject only moves a request out of `accepted` (if anything), and touches
      no chat, so the invariant is kept. */
  lemma RejectKeepsAcceptedChats(req: FriendRequest, st: PageState, updateOk: bool)
    requires AcceptedHaveChats(st.store)
    ensures AcceptedHaveChats(HandleReject(req, st, updateOk).state.store)
  {
    var r := HandleReject(req, st, updateOk);
    var rows := st.store.requests;
    var rows' := r.state.store.requests;
    forall i | 0 <= i < |rows'| && rows'[i].status == Accepted
      ensures HasChatWith(r.state.store.chats, rows'[i].sender, rows'[i].receiver)
    {
      assert rows'[i] == rows[i];
    }
  }

  /** A second accept of the same request finds the chat the first one made
      and adds none. */
  lemma RepeatedAcceptAddsNoChat(user: Id, req: FriendRequest, st: PageState, checkOk: bool, insertOk: bool, insertOk2: bool)
    requires checkOk && (HasChatWith(st.store.chats, user, req.sender) || insertOk)
    ensures var r1 := HandleAccept(user, req, st, true, checkOk, insertOk);
            var r2 := HandleAccept(user, req, r1.state, true, true, insertOk2);
            r2.ok && r2.state.store.chats == r1.state.store.chats
  {
  }

  /** If the pair had at most one chat, it still has at most one after accept. */
  lemma AcceptKeepsOneChatPerPair(user: Id, req: FriendRequest, st: PageState, updateOk: bool, checkOk: bool, insertOk: bool)
    requires |ChatsWith(st.store.chats, user, req.sender)| <= 1
    ensures |ChatsWith(HandleAccept(user, req, st, updateOk, checkOk, insertOk).state.store.chats, user, req.sender)| <= 1
  {
    var r := HandleAccept(user, req, st, updateOk, checkOk, insertOk);
    var chats := st.store.chats;
    if r.state.store.chats != chats {
      var c := NewChat(st.store, user, req.sender);
      assert r.state.store.chats == chats + [c];
      assert ChatsWith(chats, user, req.sender) == [];
      FilterAppend(chats, [c], ChatHasP(user, req.sender));
      assert Filter([c], ChatHasP(user, req.sender)) == [c];
    }
  }

  /** Accepting or rejecting never creates a second request row for a pair. */
  lemma ResponsesKeepOneRowPerPair(user: Id, req: FriendRequest, st: PageState, updateOk: bool, checkOk: bool, insertOk: bool)
    requires AtMostOnePerPair(st.store.requests)
    ensures AtMostOnePerPair(HandleAccept(user, req, st, updateOk, checkOk, insertOk).state.store.requests)
    ensures AtMostOnePerPair(HandleReject(req, st, updateOk).state.store.requests)
  {
    SetStatusKeepsPairs(st.store.requests, req.id, Accepted);
    SetStatusKeepsPairs(st.store.requests, req.id, Rejected);
  }
}

=== FILE: responsive_view.dfy ===
/** The layout hook (src/hooks/useResponsiveView.jsx): the window width
    decides between the mobile, tablet and desktop layouts. */
module ResponsiveView {

  datatype View = Mobile | Tablet | Desktop

  const TabletFrom := 768
  const DesktopFrom := 1024

  /** The state's value before the first measurement. */
  const InitialView := Desktop

  /** Layouts ordered from narrowest to widest. */
  function Rank(v: View): nat {
    match v
    case Mobile => 0
    case Tablet => 1
    case Desktop => 2
  }

  /** The width rule of `handleResize`: below 768 mobile, below 1024 tablet,
      desktop otherwise. */
  function Classify(width: int): (v: View)
    ensures v == Mobile <==> width < TabletFrom
    ensures v == Tablet <==> TabletFrom <= width < DesktopFrom
    ensures v == Desktop <==> DesktopFrom <= width
  {
    if width < TabletFrom then Mobile
    else if width < DesktopFrom then Tablet
    else Desktop
  }

  /** A wider window never gets a narrower layout. */
  lemma ClassifyMonotone(w1: int, w2: int)
    requires w1 <= w2
    ensures Rank(Classify(w1)) <= Rank(Classify(w2))
  {
  }

  /** The hook's state after the widths measured so far, one `setView` per
      measurement (the mount-time call, then each resize event): only the
      last measurement matters, and before any the view is desktop. */
  function ViewAfter(widths: seq<int>): (v: View)
    ensures |widths| == 0 ==> v == InitialView
    ensures |widths| > 0 ==> v == Classify(widths[|widths| - 1])
    ensures v == Desktop <==> |widths| == 0 || widths[|widths| - 1] >= DesktopFrom
  {
    if |widths| == 0 then InitialView else Classify(widths[|widths| - 1])
  }
}

=== FILE: rows.dfy ===
/** The hosted backend as the client sees it: three tables of immutable rows
    (`friend_requests`, `chats`, `messages`) plus a counter standing for the ids
    the database hands out on insert. Every client operation is a pure function
    from one `Store` to the next; a failed call is an input flag. */
module Rows {
  import opened Core

  datatype Status = Pending | Accepted | Rejected

  /** A row of `friend_requests`. */
  datatype FriendRequest = FriendRequest(id: nat, sender: Id, receiver: Id, status: Status)

  /** A row of `chats`; `lastMessage`/`lastMessageTime` are the denormalised
      preview columns. The id 0 plays the part of a falsy JavaScript id. */
  datatype ChatRow = ChatRow(id: nat, participants: seq<Id>, lastMessage: Option<string>, lastMessageTime: Option<int>)

  /** An entry of a chat window's message list: either a `messages` row
      (person-to-person chat) or a locally kept AI-conversation entry.
      Times are integer milliseconds since the epoch. */
  datatype Message =
    | StoredMessage(id: int, chatId: nat, senderId: Id, content: string, createdAt: int)
    | AIMessage(id: int, text: string, isUser: bool, timestamp: int)

  /** Rows are kept in insertion order; `nextId` is the id the next insert gets. */
  datatype Store = Store(requests: seq<FriendRequest>, chats: seq<ChatRow>, messages: seq<Message>, nextId: nat)

  /** The row links `a` and `b`, in either direction. */
  predicate Between(r: FriendRequest, a: Id, b: Id) {
    (r.sender == a && r.receiver == b) || (r.sender == b && r.receiver == a)
  }

  function BetweenP(a: Id, b: Id): FriendRequest -> bool {
    r => Between(r, a, b)
  }

  /** The rows of the pair {a, b}, whatever their status or direction. */
  function RowsBetween(rows: seq<FriendRequest>, a: Id, b: Id): (r: seq<FriendRequest>)
    ensures forall x :: x in r <==> x in rows && Between(x, a, b)
    ensures |r| > 0 <==> exists i :: 0 <= i < |rows| && Between(rows[i], a, b)
  {
    var r := Filter(rows, BetweenP(a, b));
    assert forall i :: 0 <= i < |rows| && Between(rows[i], a, b) ==> rows[i] in r;
    assert |r| > 0 ==> r[0] in rows;
    r
  }

  /** The pair is unordered: asking about {b, a} gives the same rows. */
  lemma RowsBetweenSymmetric(rows: seq<FriendRequest>, a: Id, b: Id)
    ensures RowsBetween(rows, a, b) == RowsBetween(rows, b, a)
  {
    FilterSameTest(rows, BetweenP(a, b), BetweenP(b, a));
  }

  function SentByP(u: Id): FriendRequest -> bool {
    (r: FriendRequest) => r.sender == u
  }

  function ReceivedByP(u: Id): FriendRequest -> bool {
    (r: FriendRequest) => r.receiver == u
  }

  /** `update({status: s}).eq("id", id)`: every row with that id gets status
      `s`; every other row, and every other column, is untouched. */
  function SetStatus(rows: seq<FriendRequest>, id: nat, s: Status): (r: seq<FriendRequest>)
    ensures |r| == |rows|
    ensures forall i :: 0 <= i < |rows| && rows[i].id == id ==> r[i] == rows[i].(status := s)
    ensures forall i :: 0 <= i < |rows| && rows[i].id != id ==> r[i] == rows[i]
  {
    if |rows| == 0 then []
    else [if rows[0].id == id then rows[0].(status := s) else rows[0]] + SetStatus(rows[1..], id, s)
  }

  /** `contains("participants", [a, b])`: both users are among the participants. */
  predicate ChatHas(c: ChatRow, a: Id, b: Id) {
    a in c.participants && b in c.participants
  }

  function ChatHasP(a: Id, b: Id): ChatRow -> bool {
    c => ChatHas(c, a, b)
  }

  /** The chats whose participants contain both users. */
  function ChatsWith(chats: seq<ChatRow>, a: Id, b: Id): (r: seq<ChatRow>)
    ensures forall c :: c in r <==> c in chats && a in c.participants && b in c.participants
    ensures |r| > 0 <==> HasChatWith(chats, a, b)
  {
    var r := Filter(chats, ChatHasP(a, b));
    assert forall i :: 0 <= i < |chats| && ChatHas(chats[i], a, b) ==> chats[i] in r;
    assert |r| > 0 ==> r[0] in chats;
    r
  }

  /** Some chat contains both users. */
  predicate HasChatWith(chats: seq<ChatRow>, a: Id, b: Id) {
    exists i :: 0 <= i < |chats| && ChatHas(chats[i], a, b)
  }

  /** Guarded-path invariant: no two rows for the same unordered pair. */
  predicate AtMostOnePerPair(rows: seq<FriendRequest>) {
    forall i, j :: 0 <= i < j < |rows| ==> !Between(rows[j], rows[i].sender, rows[i].receiver)
  }

  /** Every accepted request has a chat containing both of its users. */
  predicate AcceptedHaveChats(st: Store) {
    forall i :: 0 <= i < |st.requests| && st.requests[i].status == Accepted ==>
      HasChatWith(st.chats, st.requests[i].sender, st.requests[i].receiver)
  }

  /** A status update never changes who a row links, so it keeps the
      one-row-per-pair invariant. */
  lemma SetStatusKeepsPairs(rows: seq<FriendRequest>, id: nat, s: Status)
    requires AtMostOnePerPair(rows)
    ensures AtMostOnePerPair(SetStatus(rows, id, s))
  {
    var r := SetStatus(rows, id, s);
    forall i, j | 0 <= i < j < |r|
      ensures !Between(r[j], r[i].sender, r[i].receiver)
    {
      assert r[i].sender == rows[i].sender && r[i].receiver == rows[i].receiver;
      assert r[j].sender == rows[j].sender && r[j].receiver == rows[j].receiver;
    }
  }

  /** Adding chats never removes a chat that already linked a pair. */
  lemma HasChatWithGrows(chats: seq<ChatRow>, more: seq<ChatRow>, a: Id, b: Id)
    requires HasChatWith(chats, a, b)
    ensures HasChatWith(chats + more, a, b)
  {
    var i :| 0 <= i < |chats| && ChatHas(chats[i], a, b);
    assert (chats + more)[i] == chats[i];
  }
}

=== FILE: scenarios.dfy ===
/** Properties that span several parts of the client: the guarded send, the
    requests page and the friendship test together; a message send and the
    chat-list preview; the AI chat and the AI helper. */
module Scenarios {
  import opened Core
  import opened Rows
  import Text
  import ChatList
  import RequestsPage
  import FriendsApi
  import ChatWindow
  import AiModels

  /** A completed accept makes the two users friends in the sense of `areFriends`. */
  lemma AcceptMakesFriends(user: Id, req: FriendRequest, st: RequestsPage.PageState, checkOk: bool, insertOk: bool)
    requires RequestsPage.IdentifiesRequest(st.store.requests, req, user)
    requires exists i :: 0 <= i < |st.store.requests| && st.store.requests[i].id == req.id
    requires checkOk && (HasChatWith(st.store.chats, user, req.sender) || insertOk)
    ensures var r := RequestsPage.HandleAccept(user, req, st, true, checkOk, insertOk);
            FriendsApi.AreFriends(r.state.store.requests, user, req.sender, true) == Some(true)
            && FriendsApi.AreFriends(r.state.store.requests, req.sender, user, true) == Some(true)
  {
    var r := RequestsPage.HandleAccept(user, req, st, true, checkOk, insertOk);
    var i :| 0 <= i < |st.store.requests| && st.store.requests[i].id == req.id;
    var rows' := r.state.store.requests;
    assert rows'[i].status == Accepted && Between(rows'[i], user, req.sender);
    assert Between(rows'[i], req.sender, user);
  }

  /** Every row id is below the next id the backend will hand out. */
  predicate IdsBelowNext(st: Store) {
    forall i :: 0 <= i < |st.requests| ==> st.requests[i].id < st.nextId
  }

  /** The first half of the lifecycle: `a`'s guarded request to `b`, for a
      pair with no rows, is sent, keeps both invariants, and is the one row
      with its id. */
  lemma FreshPairSend(a: Id, b: Id, st: Store)
    requires a != b && IdsBelowNext(st)
    requires AtMostOnePerPair(st.requests) && AcceptedHaveChats(st)
    requires RowsBetween(st.requests, a, b) == []
    ensures var s1 := ChatList.SendFriendRequest(Some(a), b, ChatList.ListState(st, []), true, true);
            var req := ChatList.PendingRow(st, a, b);
            && s1.outcome == ChatList.RequestSent
            && s1.state.store.requests == st.requests + [req]
            && s1.state.store.chats == st.chats
            && AtMostOnePerPair(s1.state.store.requests) && AcceptedHaveChats(s1.state.store)
            && RequestsPage.IdentifiesRequest(s1.state.store.requests, req, b)
  {
    var s1 := ChatList.SendFriendRequest(Some(a), b, ChatList.ListState(st, []), true, true);
    var rows1 := s1.state.store.requests;
    ChatList.GuardedSendKeepsOneRowPerPair(Some(a), b, ChatList.ListState(st, []), true);
    assert AcceptedHaveChats(s1.state.store) by {
      forall i | 0 <= i < |rows1| && rows1[i].status == Accepted
        ensures HasChatWith(s1.state.store.chats, rows1[i].sender, rows1[i].receiver)
      {
        assert i < |st.requests| && rows1[i] == st.requests[i];
      }
    }
  }

  /** The guarded lifecycle for a pair with no history: `a` asks `b`; the
      request shows up in `b`'s received list; `b` accepts it. Afterwards the
      two are friends, the request is gone from the list, the pair has exactly
      one chat, both invariants still hold, and a further request from either
      side is refused. */
  lemma RequestAcceptLifecycle(a: Id, b: Id, st: Store)
    requires a != b && IdsBelowNext(st)
    requires AtMostOnePerPair(st.requests) && AcceptedHaveChats(st)
    requires RowsBetween(st.requests, a, b) == []
    requires |ChatsWith(st.chats, b, a)| <= 1
    ensures
      var s1 := ChatList.SendFriendRequest(Some(a), b, ChatList.ListState(st, []), true, true);
      var page := RequestsPage.Load(b, s1.state.store, true, true);
      var req := ChatList.PendingRow(st, a, b);
      var acc := RequestsPage.HandleAccept(b, req, page, true, true, true);
      var final := acc.state.store;
      && s1.outcome == ChatList.RequestSent
      && req in page.received
      && acc.ok && req !in acc.state.received
      && FriendsApi.AreFriends(final.requests, a, b, true) == Some(true)
      && |ChatsWith(final.chats, b, a)| == 1
      && AtMostOnePerPair(final.requests) && AcceptedHaveChats(final)
      && ChatList.SendFriendRequest(Some(a), b, ChatList.ListState(final, []), true, true).outcome == ChatList.AlreadyExists
      && ChatList.SendFriendRequest(Some(b), a, ChatList.ListState(final, []), true, true).outcome == ChatList.AlreadyExists
  {
    FreshPairSend(a, b, st);
    var s1 := ChatList.SendFriendRequest(Some(a), b, ChatList.ListState(st, []), true, true);
    var req := ChatList.PendingRow(st, a, b);
    var rows1 := s1.state.store.requests;
    var page := RequestsPage.Load(b, s1.state.store, true, true);
    assert rows1[|st.requests|] == req;
    assert req in page.received;
    var acc := RequestsPage.HandleAccept(b, req, page, true, true, true);
    var final := acc.state.store;
    RequestsPage.AcceptKeepsAcceptedChats(b, req, page, true, true, true);
    RequestsPage.ResponsesKeepOneRowPerPair(b, req, page, true, true, true);
    RequestsPage.AcceptKeepsOneChatPerPair(b, req, page, true, true, true);
    AcceptMakesFriends(b, req, page, true, true);
    FriendsApi.AreFriendsSymmetric(final.requests, a, b, true);
    var k := |st.requests|;
    assert final.requests[k].sender == a && final.requests[k].receiver == b;
    ChatList.AnyRowBlocksBothSides(a, b, ChatList.ListState(final, []), final.requests[k], true);
  }

  /** The guarded path's policy on rejection: once bob rejects alice's
      request, neither of them can send a new one. The rejected row itself is
      not gone; see `RejectedRequestCanStillBeAccepted`. */
  lemma RejectionBlocksForever(store: Store, a: Id, b: Id, req: FriendRequest, updateOk: bool, insertOk: bool)
    requires a != b && req in store.requests && Between(req, a, b)
    ensures var rejected := RequestsPage.HandleReject(req, RequestsPage.PageState(store, [], [req]), updateOk).state.store;
            && ChatList.SendFriendRequest(Some(a), b, ChatList.ListState(rejected, []), true, insertOk).outcome == ChatList.AlreadyExists
            && ChatList.SendFriendRequest(Some(b), a, ChatList.ListState(rejected, []), true, insertOk).outcome == ChatList.AlreadyExists
  {
    var rejected := RequestsPage.HandleReject(req, RequestsPage.PageState(store, [], [req]), updateOk).state.store;
    var i :| 0 <= i < |store.requests| && store.requests[i] == req;
    assert Between(rejected.requests[i], a, b);
    ChatList.AnyRowBlocksBothSides(a, b, ChatList.ListState(rejected, []), rejected.requests[i], insertOk);
  }

  /** A rejection blocks new requests only. The received list is loaded
      without a status filter, so after a reload the rejected request is
      listed again, and accepting it makes the two users friends. */
  lemma RejectedRequestCanStillBeAccepted(store: Store, b: Id, req: FriendRequest, i: nat, checkOk: bool, insertOk: bool)
    requires i < |store.requests| && store.requests[i] == req && req.receiver == b
    requires RequestsPage.IdentifiesRequest(store.requests, req, b)
    requires checkOk && (HasChatWith(store.chats, b, req.sender) || insertOk)
    ensures var rejected := RequestsPage.HandleReject(req, RequestsPage.PageState(store, [], [req]), true).state.store;
            var page := RequestsPage.Load(b, rejected, true, true);
            var again := rejected.requests[i];
            var acc := RequestsPage.HandleAccept(b, again, page, true, checkOk, insertOk);
            && again.status == Rejected && again in page.received
            && acc.ok
            && FriendsApi.AreFriends(acc.state.store.requests, req.sender, b, true) == Some(true)
  {
    var rejected := RequestsPage.HandleReject(req, RequestsPage.PageState(store, [], [req]), true).state.store;
    var page := RequestsPage.Load(b, rejected, true, true);
    var again := rejected.requests[i];
    assert again == req.(status := Rejected);
    assert again in rejected.requests;
    assert RequestsPage.IdentifiesRequest(rejected.requests, again, b) by {
      forall j | 0 <= j < |rejected.requests| && rejected.requests[j].id == again.id
        ensures rejected.requests[j].sender == again.sender && rejected.requests[j].receiver == b
      {
        assert rejected.requests[j] == store.requests[j].(status := Rejected);
      }
    }
    AcceptMakesFriends(b, again, page, checkOk, insertOk);
    FriendsApi.AreFriendsSymmetric(RequestsPage.HandleAccept(b, again, page, true, checkOk, insertOk).state.store.requests, b, req.sender, true);
  }

  /** After a message is sent in a window that was given a chat row's id and
      whose preview update succeeds, that chat's line in the chat list
      previews the message. */
  lemma SentMessageBecomesPreview(chatId: nat, st: ChatWindow.ChatState, text: string, env: ChatWindow.SendEnv, i: nat)
    requires chatId != 0 && env.authUser.Some? && env.insertOk && env.previewOk
    requires !Text.AllWhitespace(text)
    requires i < |st.store.chats| && st.store.chats[i].id == chatId
    ensures var r := ChatWindow.HandleSend(ChatWindow.Conversation(chatId), st, text, env);
            ChatList.PreviewText(r.state.store.chats[i].lastMessage) == ChatList.PreviewText(Some(text))
  {
  }

  /** As wired, the window is given the counterpart's user id rather than a
      chat row id, so no chat row carries the id the preview update names:
      then sending changes no chat's preview, whatever the outcomes. */
  lemma SendWithoutMatchingChatKeepsPreviews(chatId: nat, st: ChatWindow.ChatState, text: string, env: ChatWindow.SendEnv)
    requires forall i :: 0 <= i < |st.store.chats| ==> st.store.chats[i].id != chatId
    ensures ChatWindow.HandleSend(ChatWindow.Conversation(chatId), st, text, env).state.store.chats == st.store.chats
  {
    var chats := st.store.chats;
    var updated := ChatWindow.RecordPreview(chats, chatId, text, env.now);
    assert updated == chats;
  }

  /** A send in the AI chat calls the helper once, with the conversation as it
      was before the new entry, so the payload carries the prompt once, as its
      last entry, after one entry per earlier message. When the helper answers
      that call, the bot entry shows its reply. Since the helper answers every
      failure with a string, the window's own offline text is never used on
      this path. */
  lemma AIChatUsesHelperReply(st: ChatWindow.ChatState, text: string, env: ChatWindow.SendEnv,
                              apiKey: string, modelKey: string, response: AiModels.AIResponse)
    requires !Text.AllWhitespace(text)
    requires env.aiReply == Some(AiModels.GetAIResponse(apiKey, modelKey, text, st.messages, response).reply)
    ensures var r := ChatWindow.HandleSend(ChatWindow.AISelection, st, text, env);
            && r.aiCall == Some(ChatWindow.AICall(text, st.messages))
            && var x := AiModels.GetAIResponse(apiKey, modelKey, r.aiCall.value.prompt, r.aiCall.value.history, response);
            && (x.request.Some? ==> |x.request.value.messages| == |st.messages| + 1
                                    && x.request.value.messages[..|st.messages|] == AiModels.HistoryEntries(st.messages)
                                    && x.request.value.messages[|st.messages|] == AiModels.PayloadEntry(AiModels.UserRole, Some(text)))
            && r.state.messages[|st.messages|] == ChatWindow.UserEntry(text, env.now)
            && r.state.messages[|st.messages| + 1].text == x.reply
            && |x.reply| > 0
  {
  }
}

=== FILE: text.dfy ===
/** JavaScript's `String.prototype.trim`, which the client uses to reject blank
    input (search box, message box) and to clean the AI reply. */
module Text {

  /** The characters `trim` removes: ECMAScript WhiteSpace (tab, vertical tab,
      form feed, ZWNBSP and every Zs space separator) and LineTerminator. */
  predicate IsJsWhitespace(c: char) {
    || c == '\t' || c == '\n' || c == '\U{000B}' || c == '\U{000C}' || c == '\r'
    || c == ' ' || c == '\U{00A0}' || c == '\U{1680}'
    || ('\U{2000}' <= c <= '\U{200A}')
    || c == '\U{2028}' || c == '\U{2029}' || c == '\U{202F}' || c == '\U{205F}'
    || c == '\U{3000}' || c == '\U{FEFF}'
  }

  predicate AllWhitespace(s: string) {
    forall i :: 0 <= i < |s| ==> IsJsWhitespace(s[i])
  }

  /** Drops leading whitespace: the result is a suffix of `s` that does not start
      with whitespace, and everything dropped was whitespace. */
  function TrimStart(s: string): (r: string)
    ensures |r| <= |s| && r == s[|s| - |r|..]
    ensures AllWhitespace(s[..|s| - |r|])
    ensures |r| > 0 ==> !IsJsWhitespace(r[0])
  {
    if |s| > 0 && IsJsWhitespace(s[0]) then TrimStart(s[1..]) else s
  }

  /** Drops trailing whitespace: the result is a prefix of `s` that does not end
      with whitespace, and everything dropped was whitespace. */
  function TrimEnd(s: string): (r: string)
    ensures |r| <= |s| && r == s[..|r|]
    ensures AllWhitespace(s[|r|..])
    ensures |r| > 0 ==> !IsJsWhitespace(r[|r| - 1])
  {
    if |s| > 0 && IsJsWhitespace(s[|s| - 1]) then TrimEnd(s[..|s| - 1]) else s
  }

  /** `r` is the part of `s` at offset `k`, and everything of `s` before and
      after it is whitespace. */
  predicate TrimmedAt(s: string, r: string, k: nat) {
    && k + |r| <= |s| && r == s[k..k + |r|]
    && AllWhitespace(s[..k]) && AllWhitespace(s[k + |r|..])
  }

  /** `s.trim()`: the slice of `s` between its leading and trailing whitespace. */
  function Trim(s: string): (r: string)
    ensures |r| <= |s|
    ensures |r| > 0 ==> !IsJsWhitespace(r[0]) && !IsJsWhitespace(r[|r| - 1])
    ensures exists k: nat :: TrimmedAt(s, r, k)
  {
    var a := TrimStart(s);
    var r := TrimEnd(a);
    TrimSlices(s, a, r);
    assert |r| > 0 ==> r[0] == a[0];
    r
  }

  /** Dropping whitespace at the front and then at the back keeps an infix. */
  lemma TrimSlices(s: string, a: string, r: string)
    requires |a| <= |s| && a == s[|s| - |a|..] && AllWhitespace(s[..|s| - |a|])
    requires |r| <= |a| && r == a[..|r|] && AllWhitespace(a[|r|..])
    ensures TrimmedAt(s, r, |s| - |a|)
  {
    var k := |s| - |a|;
    assert s[k + |r|..] == a[|r|..];
    assert r == s[k..k + |r|];
  }

  /** `!s.trim()`: the string is empty after trimming. */
  predicate IsBlank(s: string) {
    Trim(s) == ""
  }

  /** Dropping leading whitespace leaves nothing exactly when all of it was whitespace. */
  lemma {:induction false} TrimStartEmpty(s: string)
    ensures TrimStart(s) == [] <==> AllWhitespace(s)
  {
    if |s| > 0 && IsJsWhitespace(s[0]) {
      TrimStartEmpty(s[1..]);
      if AllWhitespace(s[1..]) {
        forall i | 0 <= i < |s| ensures IsJsWhitespace(s[i]) {
          if i > 0 { assert s[i] == s[1..][i - 1]; }
        }
      }
    }
  }

  /** A string is blank exactly when every character in it is whitespace. */
  lemma BlankIffAllWhitespace(s: string)
    ensures IsBlank(s) <==> AllWhitespace(s)
  {
    var a := TrimStart(s);
    TrimStartEmpty(s);
    if |a| > 0 {
      assert TrimEnd(a)[0] == a[0];
    }
  }

  /** Trimming an already trimmed string changes nothing. */
  lemma TrimIdempotent(s: string)
    ensures Trim(Trim(s)) == Trim(s)
  {
    var r := Trim(s);
    if |r| > 0 {
      assert TrimStart(r) == r;
      assert TrimEnd(r) == r;
    } else {
      assert TrimStart(r) == r;
    }
  }
}
